=== FILE: README.md ===
# Octree to point cloud conversion, modelled in Dafny

This project models the core of the `Octree2Ply` converter of O-CNN. The
converter reads a binary octree file and writes one point per finest-depth
node to a PLY point cloud. It can also write one label per node to a text
file.

The octree file has no magic number and no version field. Four header words
(total node count T, finest node count F, depth d, full layer) fix the word
offset of every later section:

| section | words | first word |
|---|---|---|
| header | 4 | 0 |
| node_num | d+1 | 4 |
| node_num_accu | d+2 | d+5 |
| key | T | 2d+7 |
| children | T | 2d+7+T |
| data (normals, x block, then y, then z) | 3F | 2d+7+2T |
| label (optional) | F | 2d+7+2T+3F |

The converter does the following:

- It gives point `i` the three low bytes of key word `node_num_accu[d] + i`, each plus one half.
- It gives normal `i` the data words `i`, `F + i` and `2F + i`.
- With labels requested, it gives label `i` the label word `i`. The label section is only used when the buffer is exactly `(2d+7+2T+4F)*4` bytes long. Because the code computes that size in a 32-bit `int`, it also requires the buffer to be under 2 GiB.

The output path is the input path up to its last `.`, followed by `.ply`. The label path is that path followed by `.label.txt`.

Modules, one per concern:

- `Bytes`: the byte buffer as `seq<uint8>`, little-endian 32-bit words, and two's-complement `int` reads.
- `Layout`: the header, the section table, and the pointer walk that the converter uses to find each section. It also holds the label size formula, both exactly and as the compiled 32-bit arithmetic evaluates it.
- `Decoder`: reads the header and produces bounds-checked views of the sections, or an error.
- `Reconstruct`: the per-node loop and the whole conversion, `Convert`.
- `Properties`: what each output element is, which bytes the conversion reads and which it ignores, and the output order.
- `Encoder`: the writer's side of the file format. Its round trip shows that decoding recovers every key, normal and label that was written.
- `Paths`: the output path derivation.
- `AsWritten`: the label handling as written, with the 32-bit size gate, which can leave the label pointer null while the loop still reads through it (see Findings).

Decisions about inputs the source does not check:

- The source reads every section through unchecked pointer casts and checks no bounds. The model requires the layout to be sensible and otherwise stops with an error:
  - `TruncatedHeader`: fewer than 16 bytes;
  - `NegativeHeaderField`: a negative T, F or d;
  - `TruncatedBuffer`: the buffer ends before the normals do;
  - `FinestRangeOutOfBounds`: `node_num_accu[d]` is negative, or it plus F exceeds T.
- `TruncatedHeader` always stands for a read outside the buffer. So does `TruncatedBuffer` when F > 0. The other cases are stricter than the source or stand for a different failure (see `Decoder.Decode` under "Left out").
- When labels are requested, the 32-bit size gate rejects them and F > 0, the source prints an error and then dereferences a null pointer. The gate rejects a length that fails the formula, and also every buffer of 2 GiB or more. The model follows the intended behaviour instead: the conversion proceeds, no labels are emitted, and `labelsRejected` is set. `AsWritten` keeps the code as written.

## Model

| member | source | states |
|---|---|---|
| Bytes.FromToBytesLE | octree/Octree2PLY/Octree2Ply.cpp:111 | a word written as four little-endian bytes reads back as the same word |
| Bytes.ToFromBytesLE | octree/Octree2PLY/Octree2Ply.cpp:111 | four bytes read as a word and written back are the same four bytes |
| Bytes.MemoryByteOfWord | octree/Octree2PLY/Octree2Ply.cpp:147 | byte `c` of the in-memory key word (the `unsigned char*` view) is byte `c`, least significant first, of the word's value |
| Bytes.WordAtEncodeWords | octree/Octree2PLY/Octree2Ply.cpp:111 | word `k` of a buffer written as a word sequence is the `k`-th word written |
| Layout.SectionOffsets | octree/Octree2PLY/Octree2Ply.cpp:116-121 | node_num starts at word 4, node_num_accu at d+5, key at 2d+7, children at 2d+7+T, data at 2d+7+2T, labels at data+3F |
| Layout.OffsetsFollowSectionTable | octree/Octree2PLY/Octree2Ply.cpp:116-128 | every section found by the pointer walk starts where the sections before it, taken from the section table, end |
| Layout.SizeFormulaMatchesSectionTable | octree/Octree2PLY/Octree2Ply.cpp:125 | the label size formula is exactly the byte length of all seven sections. It equals the bytes up to the normals plus 4F |
| Layout.CompiledLabelGateAgrees | octree/Octree2PLY/Octree2Ply.cpp:125-126 | for buffers below 2 GiB that hold every section up to the normals, the gate computed in 32-bit `int` and 64-bit `size_t` accepts exactly when the exact formula does |
| Layout.CompiledLabelGateRejectsLarge | octree/Octree2PLY/Octree2Ply.cpp:125-126 | from 2 GiB up to the largest possible buffer, the 32-bit gate rejects every length, whatever the header |
| Layout.CompiledLabelGateExact | octree/Octree2PLY/Octree2Ply.cpp:125-126 | on any buffer that holds the normals, the 32-bit gate accepts exactly the lengths that match the formula and are below 2 GiB |
| Layout.LargeLabelledFileRejected | octree/Octree2PLY/Octree2Ply.cpp:125-126 | the header T = 2^28 - 5, F = 1, d = 0 expects 2^31 + 4 bytes, and the 32-bit gate rejects exactly that length |
| Decoder.ReadHeaderBytes | octree/Octree2PLY/Octree2Ply.cpp:111-115 | the header read through the `int*` cast is the inverse of writing four `int` words: the fields fit `int`, and writing them back reproduces the first 16 bytes |
| Encoder.HeaderRead | octree/Octree2PLY/Octree2Ply.cpp:111-115 | a header written as four `int` words is read back field for field |
| Decoder.GateLabels | octree/Octree2PLY/Octree2Ply.cpp:122-133 | labels are not requested iff the flag is off. They are valid iff requested and the length matches the formula, and then they end exactly at the end of the buffer |
| Decoder.Decode | octree/Octree2PLY/Octree2Ply.cpp:110-133 | TruncatedHeader iff under 16 bytes. NegativeHeaderField iff a count is negative. TruncatedBuffer iff the buffer ends before the label section's start. On success, each view starts where the section table says, the base is node_num_accu[d], and the labels follow the gate |
| Decoder.DecodeAccepts | octree/Octree2PLY/Octree2Ply.cpp:110-142 | a readable header with non-negative counts, a buffer that holds the normals, and an in-range node_num_accu[d] always decode |
| Reconstruct.ComponentBlockIsProduct | octree/Octree2PLY/Octree2Ply.cpp:151 | the block holding component `c` of every normal starts at data word `c*F` and lies inside the 3F data words |
| Reconstruct.EmitPoints | octree/Octree2PLY/Octree2Ply.cpp:143-150 | after `n` iterations, `3n` coordinates have been appended |
| Reconstruct.EmitPointsAt | octree/Octree2PLY/Octree2Ply.cpp:143-150 | coordinate `3i+c` after any later iteration is still component `c` of finest node `i` |
| Reconstruct.EmitPointsInGrid | octree/Octree2PLY/Octree2Ply.cpp:150 | every coordinate lies in 0.5 .. 255.5 |
| Reconstruct.EmitNormals | octree/Octree2PLY/Octree2Ply.cpp:148-151 | after `n` iterations, `3n` normal components have been appended |
| Reconstruct.EmitNormalsAt | octree/Octree2PLY/Octree2Ply.cpp:148-151 | normal component `3i+c` is data word `c*F + i` |
| Reconstruct.EmitLabels | octree/Octree2PLY/Octree2Ply.cpp:153-156 | after `n` iterations over a valid label section, `n` labels have been appended |
| Reconstruct.EmitLabelsAt | octree/Octree2PLY/Octree2Ply.cpp:153-156 | label `i` is word `i` of the label section |
| Reconstruct.ReconstructPoints | octree/Octree2PLY/Octree2Ply.cpp:136-158 | 3F coordinates and 3F normal components. F labels when the label section is valid, none otherwise. `labelsRejected` iff the gate rejected requested labels |
| Reconstruct.Convert | octree/Octree2PLY/Octree2Ply.cpp:110-158 | succeeds iff decoding does and passes decoding errors through. On success: 3F coordinates and 3F normal components; F labels iff labels were requested and the length matches, otherwise none; `labelsRejected` iff they were requested and the length does not match |
| Properties.PointsFromKeyBytes | octree/Octree2PLY/Octree2Ply.cpp:141-150 | point `i` is bytes 0, 1, 2 of key word `node_num_accu[d] + i` plus one half |
| Properties.NormalFromBlock | octree/Octree2PLY/Octree2Ply.cpp:151 | normal component `3i+c` is word `i` of component block `c` |
| Properties.NormalsGathered | octree/Octree2PLY/Octree2Ply.cpp:151 | normal `i` is data words `i`, `F+i`, `2F+i` |
| Properties.LabelsCopied | octree/Octree2PLY/Octree2Ply.cpp:128-155 | with a valid label section, label `i` is signed word `data + 3F + i` |
| Properties.ConvertOutputs | octree/Octree2PLY/Octree2Ply.cpp:141-156 | for every finest node of a successful conversion: its point, its normal and (when valid) its label, stated against the buffer bytes |
| Properties.PointsInGrid | octree/Octree2PLY/Octree2Ply.cpp:150 | every coordinate of a converted cloud lies in 0.5 .. 255.5 |
| Properties.LabelFlagDoesNotAffectGeometry | octree/Octree2PLY/Octree2Ply.cpp:122-152 | the label flag changes neither whether a buffer converts nor its points and normals |
| Properties.EmitPointsSameKeys | octree/Octree2PLY/Octree2Ply.cpp:141-150 | points depend only on the header and node_num_accu[d], not on the label state |
| Properties.EmitNormalsSameData | octree/Octree2PLY/Octree2Ply.cpp:151 | normals depend only on the header, not on the label state or base |
| Properties.DecodeFrame | octree/Octree2PLY/Octree2Ply.cpp:110-133 | decoding reads only the bytes before the key section, plus the buffer length |
| Properties.EmitPointsFrame | octree/Octree2PLY/Octree2Ply.cpp:141-150 | the points read only the F finest key words |
| Properties.EmitNormalsFrame | octree/Octree2PLY/Octree2Ply.cpp:151 | the normals read only the data section |
| Properties.EmitLabelsFrame | octree/Octree2PLY/Octree2Ply.cpp:155 | the labels read only the label section |
| Properties.ReconstructFrame | octree/Octree2PLY/Octree2Ply.cpp:141-158 | reconstruction reads only the finest keys, the normals and the label section |
| Properties.TrailingBytesIgnoredWithoutLabels | octree/Octree2PLY/Octree2Ply.cpp:122-133 | with labels off, appending any bytes (a label section or anything else) does not change the result |
| Properties.ChildrenIgnored | octree/Octree2PLY/Octree2Ply.cpp:145 | the children section is never read, so every finest node is emitted whatever its child entry |
| Properties.SwapWordsAt | octree/Octree2PLY/Octree2Ply.cpp:147 | after exchanging two words, each byte of a word comes from its partner word |
| Properties.SwappedCoordinate | octree/Octree2PLY/Octree2Ply.cpp:147-150 | after exchanging the keys of nodes `i` and `j`, point `n` is read from its partner's old key |
| Properties.SwappedPoints | octree/Octree2PLY/Octree2Ply.cpp:143-150 | exchanging the keys of nodes `i` and `j` exchanges points `i` and `j` and no others |
| Properties.SwapKeepsOtherSections | octree/Octree2PLY/Octree2Ply.cpp:110-156 | exchanging two finest keys leaves the decoded layout, the normals and the labels unchanged |
| Properties.SwappingKeysSwapsPoints | octree/Octree2PLY/Octree2Ply.cpp:143-152 | output order is stored order: exchanging two finest keys exchanges exactly those two points of the result |
| Encoder.EncodedLengthGate | octree/Octree2PLY/Octree2Ply.cpp:125-126 | a written file passes the size formula iff it carries one label per finest node |
| Encoder.EncodeThenDecode | octree/Octree2PLY/Octree2Ply.cpp:110-133 | a consistently written file decodes to its own header and node_num_accu[d]. Its labels are valid iff requested and one per node was written |
| Encoder.EncodedPoint | octree/Octree2PLY/Octree2Ply.cpp:141-150 | point `i` of a written file is the low bytes of the key written for finest node `i`, plus one half |
| Encoder.EncodedNormal | octree/Octree2PLY/Octree2Ply.cpp:151 | normal component `3i+c` of a written file is normal word `c*F + i` as written |
| Encoder.EncodedLabels | octree/Octree2PLY/Octree2Ply.cpp:153-156 | a written file's labels come back exactly when requested and one per node was written; otherwise none |
| Paths.LastIndexOf | octree/Octree2PLY/Octree2Ply.cpp:184 | `rfind`: absent iff the character does not occur; otherwise an occurrence with none after it |
| Paths.PlyPath | octree/Octree2PLY/Octree2Ply.cpp:184 | ends in `.ply`. Its stem is a prefix of the input. The stem is the whole input iff the input has no `.`; otherwise the stem stops at the last `.` |
| Paths.PlyPathReplacesExtension | octree/Octree2PLY/Octree2Ply.cpp:184 | `stem + ext` with a dot-led, otherwise dot-free `ext` becomes `stem + ".ply"`, whatever dots the stem holds |
| Paths.PlyPathWithoutDot | octree/Octree2PLY/Octree2Ply.cpp:184 | an input without a `.` keeps its whole name (`substr(0, npos)`) |
| Paths.PlyPathIdempotent | octree/Octree2PLY/Octree2Ply.cpp:184 | deriving the point cloud path of a point cloud path changes nothing |
| Paths.LabelPathOfInput | octree/Octree2PLY/Octree2Ply.cpp:162 | the label file of `stem + ext` is `stem + ".ply.label.txt"` |
| Paths.DotInDirectoryName | octree/Octree2PLY/Octree2Ply.cpp:184 | the last `.` is searched in the whole path: with a dotted directory and a dot-free file name, the directory's extension is cut |
| AsWritten.LabelPointer | octree/Octree2PLY/Octree2Ply.cpp:122-129 | the label pointer is set iff labels are requested, the length matches the formula and the buffer is below 2 GiB (the 32-bit gate). It then addresses the label section, and the F words it lets the loop read are exactly the last F words of the buffer |
| AsWritten.ConvertAsWritten | octree/Octree2PLY/Octree2Ply.cpp:110-158 | the conversion as written: decoding errors pass through. Otherwise it faults at node 0 exactly when labels are requested, the 32-bit gate rejects them and F > 0. Else it emits 3F coordinates, 3F normal components and F or no labels by the flag, and reports the labels invalid iff the gate rejected requested labels |
| AsWritten.EmitLabelsAsWritten | octree/Octree2PLY/Octree2Ply.cpp:153-156 | the loop as written faults, at node 0, iff labels are requested, the 32-bit gate rejected them and there is at least one node |
| AsWritten.EmitLabelsAsWrittenValid | octree/Octree2PLY/Octree2Ply.cpp:128-155 | when the 32-bit gate sets the pointer, the loop as written reads the same labels as the corrected loop |
| AsWritten.AsWrittenDiffersOnlyByNullRead | octree/Octree2PLY/Octree2Ply.cpp:122-156 | the code as written and the corrected conversion differ exactly on buffers that decode and whose requested labels the 32-bit gate rejects. With F > 0 the code as written faults, otherwise it only reports the labels invalid. When the length fails the formula, the corrected conversion emits no labels and reports them rejected. When the buffer is 2 GiB or more with a matching length, the corrected conversion emits all F labels |
| AsWritten.NullLabelReadOnMislabelledFile | octree/Octree2PLY/Octree2Ply.cpp:126-155 | every consistently written file with at least one node but not one label per node, read with labels on, faults as written |
| AsWritten.NullLabelReadOnLargeFile | octree/Octree2PLY/Octree2Ply.cpp:125-155 | every correctly labelled written file of 2 GiB or more with at least one node, read with labels on, faults as written; the corrected conversion reads back every label written |
| AsWritten.NullLabelReadWitness | octree/Octree2PLY/Octree2Ply.cpp:131-155 | the 48-byte one-node file without labels, read with labels on, faults as written; the corrected conversion succeeds and reports the labels rejected |

## Left out

- File input and output are not modelled. This covers reading the file list (`get_all_filenames`, :8-23), reading the octree file (:97-108), and the writes in `save_ply` and `save_label`. The model starts from the buffer contents as a byte sequence.
- The PLY text rendering is not modelled: the header lines, the `%.6f` formatting (:34-59), and the NUL-terminated slot compaction (:61-69). These are text formatting over floating point; the model stops at the point, normal and label sequences that are written.
- The label text file (:84-90) is not modelled, because it only renders the label sequence, which the model produces.
- The diagnostics are not modelled. The "not a valid octree file" message (:131) becomes the `labelsRejected` flag. The progress message (:188) and the usage message (:167-171) are console output.
- The command line is not modelled: `atoi` of the label flag (:175) becomes a `bool` parameter. The OpenMP loop over files (:180-189) is not modelled; each file is converted independently.
- Reconstruct.PointCoordinate: a coordinate is the exact value byte + 0.5 as a `real`. The source's `float` arithmetic gives the same value, since every such value is exactly representable.
- Reconstruct.NormalComponent: normal components are carried as the opaque 32-bit words that hold them. The source copies the `float` values without arithmetic, and the model does not interpret them.
- Reconstruct.Convert: the index `c*final_nnum + i` (:151) and the sizes passed to `reserve` (:138-140) are 32-bit `int` expressions. They overflow only for F above about 715 million, and the model uses unbounded integers for them.
- Layout.CompiledLabelGateAgrees: the 32-bit gate agrees with the exact formula only for buffers under 2 GiB; `Layout.CompiledLabelGateRejectsLarge` covers the rest. The `AsWritten` members use the 32-bit gate, and every other member uses the exact formula.
- AsWritten.ConvertAsWritten: the code-as-written members take buffers shorter than 2^63 bytes (`Layout.MAX_BUFFER_BYTES`), since a `std::vector<char>` cannot hold more.
- Decoder.Decode: the source never checks the buffer length, the signs of the header counts, or the range of `node_num_accu[d]`. The model rejects each case with an error, which departs from the source in these ways:
  - `FinestRangeOutOfBounds` also rejects files the source reads inside the buffer. For example, with T = 2, F = 1, d = 0 and node_num_accu[0] = 2 in a 56-byte file, the source reads `key[2]`, which is `children[0]`, and emits a point from it. The error also rejects any out-of-range base when F = 0, where the source reads no key at all.
  - `NegativeHeaderField` rejects a negative T, and d = -1 or -2, even where the source reads only inside the buffer:
    - with d = -1, the node_num and node_num_accu sections have 0 and 1 words, and `node_num_accu[-1]` is header word 3;
    - with d = -2, `node_num_accu[-2]` is header word 1;
    - with T = -1, F = 1, d = 0 in a 32-byte file with node_num_accu[0] = 0, the children start at word 6 and the data at word 5, so the normals are words 5 to 7 and the key is word 7.
  - With F < 0, `NegativeHeaderField` stands for a different failure: `pts.reserve(3 * final_nnum)` (:138) throws `std::length_error`, which escapes the loop over files and ends the whole batch. The model reports the error for this file only.
  - With F = 0, `TruncatedBuffer` also rejects files the source reads inside the buffer. The loop at :143 never runs, so the source reads only the header and `node_num_accu[d]` and writes an empty cloud. An example is the 24-byte file with T = 1, F = 0, d = 0, where the key and children words are missing.
  - The model does not check that `node_num_accu` holds the prefix sums of `node_num`, because the source never reads those other entries.
- Bytes.WordAt: words are read little-endian, which is the layout on the x86 hosts the converter runs on.

## Findings

| source | as written | input that shows it | evidently intended | confidence | as-written member | corrected member |
|---|---|---|---|---|---|---|
| octree/Octree2PLY/Octree2Ply.cpp:131-155 | with labels requested and a length that fails the size formula, the file is reported invalid but `labels.push_back(label_ptr[i])` still runs with `label_ptr == nullptr` | a one-node file (T = F = 1, d = 0) written without labels (48 bytes; the formula expects 52), converted with has_label = 1 | convert the points and normals and emit no labels, as the error message implies | high, not executed | AsWritten.NullLabelReadWitness | Reconstruct.Convert |
| octree/Octree2PLY/Octree2Ply.cpp:125-126 | `sz` is computed and stored in a 32-bit `int`, so for a buffer of 2 GiB or more it never equals `octree.size()`. Every label section is rejected, and with F > 0 the loop then reads through the null pointer | a correctly labelled file with T = 2^28 - 5, F = 1, d = 0 and one label (2^31 + 4 bytes), converted with has_label = 1: `sz` wraps to -2^31 + 4 | compare the length in `size_t`, so a correctly labelled file of any size has its labels read | high, not executed | AsWritten.NullLabelReadOnLargeFile | Encoder.EncodedLabels |

The corrected behaviour is the one `Reconstruct.Convert` states: a rejected label section still yields every point and normal, no labels, and `labelsRejected`. `Encoder.EncodedLabels` shows that the corrected conversion reads back the labels of every correctly labelled file, whatever its size. `AsWritten.AsWrittenDiffersOnlyByNullRead` shows that these two defects are the only places where the corrected label handling departs from the code as written. Both conversions share the decoding errors described above.

=== FILE: aswritten.dfy ===
/**
  The converter's label handling as it is written, next to the corrected
  conversion.

  The label pointer is set only when the 32-bit size gate accepts the buffer
  length. When labels are requested and the gate rejects it, the converter
  reports the file as invalid and leaves the pointer null, yet the per-node
  loop still reads `label_ptr[i]` for every finest node. Here that read is a
  fault, so the two conversions can be compared.

  The 32-bit gate rejects every buffer of 2 GiB or more, so there even a
  correctly labelled file faults. Every buffer here is shorter than
  MAX_BUFFER_BYTES, as the converter's `std::vector<char>` is.
 */
module AsWritten {
  import opened Wrappers
  import opened Bytes
  import opened Layout
  import opened Decoder
  import opened Reconstruct
  import opened Encoder

  datatype Fault =
    | Undecodable(error: DecodeError)  // the layout itself is unusable
    | NullLabelRead(node: nat)         // label_ptr[node] read through a null pointer

  /** The label section as the 32-bit gate sees it: valid by the size formula,
      and in a buffer below 2 GiB. */
  predicate CompiledAccepts(buf: seq<uint8>, t: Octree) {
    t.labels.LabelsValid? && |buf| < TWO_TO_31
  }

  /** The label pointer as the converter sets it: the word after the normals
      when the 32-bit gate accepts, null otherwise (and when labels are off).
      A pointer that is set addresses exactly the last F words of the buffer. */
  function LabelPointer(buf: seq<uint8>, t: Octree, hasLabel: bool): (p: Option<nat>)
    requires WellFormed(buf, t) && t.labels == GateLabels(|buf|, t.header, hasLabel)
    requires |buf| < MAX_BUFFER_BYTES
    ensures p.Some? <==> hasLabel && CompiledAccepts(buf, t)
    ensures p.Some? ==> p.value == t.Labels().start && 4 * (p.value + t.header.finalNodes) == |buf|
  {
    var accept := hasLabel && CompiledLabelGate(|buf|, t.header);
    assert accept <==> hasLabel && CompiledAccepts(buf, t) by {
      CompiledLabelGateExact(|buf|, t.header);
    }
    if accept then Some(SectionOffsets(t.header).data + 3 * t.header.finalNodes) else None
  }

  /** The labels after the first `n` iterations of the loop as written: with
      labels requested, every iteration dereferences the label pointer. */
  function EmitLabelsAsWritten(buf: seq<uint8>, t: Octree, hasLabel: bool, n: nat): (r: Result<seq<int32>, Fault>)
    requires WellFormed(buf, t) && t.labels == GateLabels(|buf|, t.header, hasLabel)
    requires |buf| < MAX_BUFFER_BYTES && n <= t.header.finalNodes
    ensures r.Failure? <==> hasLabel && !CompiledAccepts(buf, t) && n > 0
    ensures r.Failure? ==> r.error == NullLabelRead(0)
    ensures r.Success? ==> |r.value| == (if hasLabel then n else 0)
  {
    if n == 0 then Success([])
    else
      var prev :- EmitLabelsAsWritten(buf, t, hasLabel, n - 1);
      if !hasLabel then Success(prev)
      else
        match LabelPointer(buf, t, hasLabel)
        case None => Failure(NullLabelRead(n - 1))
        case Some(p) => Success(prev + [Int32At(buf, p + n - 1)])
  }

  /** The whole conversion as written: it faults exactly when labels are
      requested, the 32-bit gate rejects them and some finest node exists;
      otherwise it emits every point and normal, and reports the label
      section as invalid whenever the gate rejected it. */
  function ConvertAsWritten(buf: seq<uint8>, hasLabel: bool): (r: Result<PointCloud, Fault>)
    requires |buf| < MAX_BUFFER_BYTES
    ensures Decode(buf, hasLabel).Failure? ==> r == Failure(Undecodable(Decode(buf, hasLabel).error))
    ensures Decode(buf, hasLabel).Success? ==>
      var t := Decode(buf, hasLabel).value;
      var f := t.header.finalNodes;
      && (r.Failure? <==> hasLabel && !CompiledAccepts(buf, t) && f > 0)
      && (r.Failure? ==> r.error == NullLabelRead(0))
      && (r.Success? ==> |r.value.points| == 3 * f && |r.value.normals| == 3 * f
                         && |r.value.labels| == (if hasLabel then f else 0)
                         && (r.value.labelsRejected <==> hasLabel && !CompiledAccepts(buf, t)))
  {
    match Decode(buf, hasLabel)
    case Failure(e) => Failure(Undecodable(e))
    case Success(t) =>
      var labels :- EmitLabelsAsWritten(buf, t, hasLabel, t.header.finalNodes);
      Success(PointCloud(
        EmitPoints(buf, t, t.header.finalNodes),
        EmitNormals(buf, t, t.header.finalNodes),
        labels,
        hasLabel && LabelPointer(buf, t, hasLabel).None?))
  }

  /** Where the label pointer is set, the loop as written reads the same
      labels as the corrected one. */
  lemma {:induction false} EmitLabelsAsWrittenValid(buf: seq<uint8>, t: Octree, hasLabel: bool, n: nat)
    requires WellFormed(buf, t) && t.labels == GateLabels(|buf|, t.header, hasLabel)
    requires |buf| < MAX_BUFFER_BYTES && CompiledAccepts(buf, t) && n <= t.header.finalNodes
    ensures EmitLabelsAsWritten(buf, t, hasLabel, n) == Success(EmitLabels(buf, t, n))
  {
    if n > 0 {
      EmitLabelsAsWrittenValid(buf, t, hasLabel, n - 1);
    }
  }

  /** Without labels the loop as written never touches the label pointer. */
  lemma {:induction false} EmitLabelsAsWrittenEmpty(buf: seq<uint8>, t: Octree, hasLabel: bool, n: nat)
    requires WellFormed(buf, t) && t.labels == GateLabels(|buf|, t.header, hasLabel)
    requires |buf| < MAX_BUFFER_BYTES && !hasLabel && n <= t.header.finalNodes
    ensures EmitLabelsAsWritten(buf, t, hasLabel, n) == Success([])
  {
    if n > 0 {
      EmitLabelsAsWrittenEmpty(buf, t, hasLabel, n - 1);
    }
  }

  /** The two conversions agree on every buffer except those whose labels
      are requested and rejected by the 32-bit gate. There the code as written
      reads through the null pointer when some finest node exists, and
      otherwise only reports the section as invalid. The gate rejects a label
      section either because the length fails the size formula, where the
      corrected conversion rejects it too and emits no labels, or because the
      buffer is 2 GiB or more, where the corrected conversion reads it. */
  lemma AsWrittenDiffersOnlyByNullRead(buf: seq<uint8>, hasLabel: bool)
    requires |buf| < MAX_BUFFER_BYTES
    ensures
      var d := Decode(buf, hasLabel);
      var rejected := d.Success? && hasLabel && !CompiledAccepts(buf, d.value);
      var oversize := rejected && d.value.labels.LabelsValid?;
      var crashes := rejected && d.value.header.finalNodes > 0;
      && (crashes <==> ConvertAsWritten(buf, hasLabel) == Failure(NullLabelRead(0)))
      && (rejected && !oversize ==> Convert(buf, hasLabel).Success?
                                    && Convert(buf, hasLabel).value.labels == []
                                    && Convert(buf, hasLabel).value.labelsRejected)
      && (oversize ==> TWO_TO_31 <= |buf| && Convert(buf, hasLabel).Success?
                       && |Convert(buf, hasLabel).value.labels| == d.value.header.finalNodes
                       && !Convert(buf, hasLabel).value.labelsRejected)
      && (oversize && !crashes ==>
            ConvertAsWritten(buf, hasLabel) == Success(Convert(buf, hasLabel).value.(labelsRejected := true)))
      && (!crashes && !oversize && Convert(buf, hasLabel).Success? ==>
            ConvertAsWritten(buf, hasLabel) == Success(Convert(buf, hasLabel).value))
      && (Convert(buf, hasLabel).Failure? ==>
            ConvertAsWritten(buf, hasLabel) == Failure(Undecodable(Convert(buf, hasLabel).error)))
  {
    if Decode(buf, hasLabel).Success? {
      var t := Decode(buf, hasLabel).value;
      var f := t.header.finalNodes;
      ConvertAsWrittenDecoded(buf, hasLabel, t);
      if CompiledAccepts(buf, t) {
        EmitLabelsAsWrittenValid(buf, t, hasLabel, f);
      } else if !hasLabel {
        EmitLabelsAsWrittenEmpty(buf, t, hasLabel, f);
      }
    }
  }

  lemma ConvertAsWrittenDecoded(buf: seq<uint8>, hasLabel: bool, t: Octree)
    requires |buf| < MAX_BUFFER_BYTES && Decode(buf, hasLabel) == Success(t)
    ensures t.labels == GateLabels(|buf|, t.header, hasLabel)
    ensures Convert(buf, hasLabel) == Success(ReconstructPoints(buf, t))
    ensures
      var f := t.header.finalNodes;
      var labels := EmitLabelsAsWritten(buf, t, hasLabel, f);
      var rejected := hasLabel && LabelPointer(buf, t, hasLabel).None?;
      && (labels.Failure? ==> ConvertAsWritten(buf, hasLabel) == Failure(labels.error))
      && (labels.Success? ==>
            var cloud := PointCloud(EmitPoints(buf, t, f), EmitNormals(buf, t, f), labels.value, rejected);
            ConvertAsWritten(buf, hasLabel) == Success(cloud))
  {
  }

  /** Every file written with at least one finest node but not one label
      per node, read with labels requested, makes the converter as written
      read through the null label pointer; the corrected conversion emits
      its points and reports the label section as rejected. */
  lemma NullLabelReadOnMislabelledFile(o: OctreeFile)
    requires Consistent(o) && o.header.finalNodes > 0 && |o.labels| != o.header.finalNodes
    requires |Encode(o)| < MAX_BUFFER_BYTES
    ensures ConvertAsWritten(Encode(o), true) == Failure(NullLabelRead(0))
    ensures Convert(Encode(o), true).Success?
    ensures |Convert(Encode(o), true).value.points| == 3 * o.header.finalNodes
    ensures Convert(Encode(o), true).value.labels == []
    ensures Convert(Encode(o), true).value.labelsRejected
  {
    EncodeThenDecode(o, true);
    AsWrittenDiffersOnlyByNullRead(Encode(o), true);
  }

  /** Every correctly labelled file of 2 GiB or more with at least one finest
      node, read with labels requested, also makes the converter as written
      read through the null label pointer, because the 32-bit gate rejects
      it; the corrected conversion reads back every label written. */
  lemma NullLabelReadOnLargeFile(o: OctreeFile)
    requires Consistent(o) && o.header.finalNodes > 0 && |o.labels| == o.header.finalNodes
    requires TWO_TO_31 <= |Encode(o)| < MAX_BUFFER_BYTES
    ensures ConvertAsWritten(Encode(o), true) == Failure(NullLabelRead(0))
    ensures Convert(Encode(o), true).Success?
    ensures Convert(Encode(o), true).value.labels == o.labels
    ensures !Convert(Encode(o), true).value.labelsRejected
  {
    EncodeThenDecode(o, true);
    AsWrittenDiffersOnlyByNullRead(Encode(o), true);
    EncodedLabels(o, true);
  }

  /** One node (T = F = 1, depth 0) and no labels: 48 bytes, where the size
      formula expects 52. */
  function OneNodeFile(): (o: OctreeFile)
    ensures Consistent(o) && |Encode(o)| == 48
  {
    OctreeFile(Header(1, 1, 0, 0), [1], [0, 1], [0], [-1], [0, 0, 0], [])
  }

  lemma NullLabelReadWitness()
    ensures ConvertAsWritten(Encode(OneNodeFile()), true) == Failure(NullLabelRead(0))
    ensures Convert(Encode(OneNodeFile()), true).Success?
    ensures Convert(Encode(OneNodeFile()), true).value.labelsRejected
  {
    NullLabelReadOnMislabelledFile(OneNodeFile());
  }
}

=== FILE: bytes.dfy ===
/**
  Raw byte buffers and the 32-bit words the octree file is made of.

  The converter reinterprets its byte buffer as an array of `int` (and of
  `float`) on a little-endian host, so every word is the little-endian value of
  four consecutive bytes. Floats are never interpreted: a normal component is
  carried as the opaque 32-bit word that holds it.
 */
module Bytes {

  type uint8 = b: int | 0 <= b < 0x100
  type uint32 = w: int | 0 <= w < 0x1_0000_0000
  type int32 = i: int | -0x8000_0000 <= i < 0x8000_0000

  predicate IsInt32(x: int) {
    -0x8000_0000 <= x < 0x8000_0000
  }

  const WORD_BYTES: nat := 4
  const TWO_TO_31: int := 0x8000_0000
  const TWO_TO_32: int := 0x1_0000_0000
  const TWO_TO_63: int := 0x8000_0000_0000_0000
  const TWO_TO_64: int := 0x1_0000_0000_0000_0000

  /** The word whose bytes, least significant first, are `b0` .. `b3`. */
  function LittleEndian(b0: uint8, b1: uint8, b2: uint8, b3: uint8): uint32
  {
    b0 as int + 0x100 * b1 as int + 0x1_0000 * b2 as int + 0x100_0000 * b3 as int
  }

  /** The little-endian value of four bytes. */
  function FromBytesLE(bs: seq<uint8>): uint32
    requires |bs| == WORD_BYTES
  {
    LittleEndian(bs[0], bs[1], bs[2], bs[3])
  }

  /** The four bytes of a word, least significant first. */
  function ToBytesLE(w: uint32): (bs: seq<uint8>)
    ensures |bs| == WORD_BYTES
  {
    [w % 0x100, (w / 0x100) % 0x100, (w / 0x1_0000) % 0x100, w / 0x100_0000]
  }

  /** Byte `c` of a word, counting from the least significant byte. */
  function ByteOf(w: uint32, c: nat): uint8
    requires c < WORD_BYTES
  {
    ToBytesLE(w)[c]
  }

  lemma FromToBytesLE(w: uint32)
    ensures FromBytesLE(ToBytesLE(w)) == w
  {
    var bs := ToBytesLE(w);
    var q1: int, q2: int, q3: int := w / 0x100, w / 0x1_0000, w / 0x100_0000;
    assert w == w % 0x100 + 0x100 * q1;
    assert q1 == q1 % 0x100 + 0x100 * q2;
    assert q2 == q2 % 0x100 + 0x100 * q3;
    assert FromBytesLE(bs) == w % 0x100 + 0x100 * (q1 % 0x100) + 0x1_0000 * (q2 % 0x100) + 0x100_0000 * q3;
  }

  /** Division by a byte boundary recovers the quotient and remainder `x`
      was built from. */
  lemma DivModOf(x: int, base: int, lo: int, hi: int)
    requires base == 0x100 || base == 0x1_0000 || base == 0x100_0000
    requires 0 <= lo < base && x == lo + base * hi
    ensures x / base == hi && x % base == lo
  {
    if base == 0x100 {
    } else if base == 0x1_0000 {
    } else {
    }
  }

  lemma ToFromBytesLE(bs: seq<uint8>)
    requires |bs| == WORD_BYTES
    ensures ToBytesLE(FromBytesLE(bs)) == bs
  {
    var b0: int, b1: int, b2: int, b3: int := bs[0], bs[1], bs[2], bs[3];
    var w: int := b0 + 0x100 * b1 + 0x1_0000 * b2 + 0x100_0000 * b3;
    assert FromBytesLE(bs) == w;
    DivModOf(w, 0x100, b0, b1 + 0x100 * b2 + 0x1_0000 * b3);
    DivModOf(w, 0x1_0000, b0 + 0x100 * b1, b2 + 0x100 * b3);
    DivModOf(w, 0x100_0000, b0 + 0x100 * b1 + 0x1_0000 * b2, b3);
    DivModOf(b1 + 0x100 * b2 + 0x1_0000 * b3, 0x100, b1, b2 + 0x100 * b3);
    DivModOf(b2 + 0x100 * b3, 0x100, b2, b3);
  }

  /** The signed reading of a word (two's complement), as `int` sees it. */
  function ToInt32(w: uint32): (i: int32)
    ensures (i - w) % TWO_TO_32 == 0
    ensures 0 <= i <==> w < 0x8000_0000
  {
    if w < 0x8000_0000 then w else w - TWO_TO_32
  }

  /** The word that holds a signed value. */
  function FromInt32(i: int32): (w: uint32)
    ensures (w - i) % TWO_TO_32 == 0
  {
    if i >= 0 then i else i + TWO_TO_32
  }

  lemma Int32RoundTrip(i: int32, w: uint32)
    ensures ToInt32(FromInt32(i)) == i
    ensures FromInt32(ToInt32(w)) == w
  {
  }

  /** Two's-complement truncation of an integer to a 32-bit `int`. */
  function Wrap32(x: int): (r: int32)
    ensures (r - x) % TWO_TO_32 == 0
    ensures -0x8000_0000 <= x < 0x8000_0000 ==> r == x
  {
    ToInt32(x % TWO_TO_32)
  }

  /** Conversion of an integer to the unsigned 64-bit `size_t`. */
  function WrapSizeT(x: int): (r: nat)
    ensures r < TWO_TO_64 && (r - x) % TWO_TO_64 == 0
    ensures 0 <= x < TWO_TO_64 ==> r == x
  {
    x % TWO_TO_64
  }

  /** Word `w` of a buffer (word `w` occupies bytes 4w .. 4w+3). */
  function WordAt(buf: seq<uint8>, w: nat): uint32
    requires 4 * w + 4 <= |buf|
  {
    LittleEndian(buf[4 * w], buf[4 * w + 1], buf[4 * w + 2], buf[4 * w + 3])
  }

  /** A word of the buffer is the little-endian value of its four bytes. */
  lemma WordAtBytes(buf: seq<uint8>, w: nat)
    requires 4 * w + 4 <= |buf|
    ensures WordAt(buf, w) == FromBytesLE(buf[4 * w .. 4 * w + 4])
  {
  }

  /** Word `w` of a buffer read as a signed `int`. */
  function Int32At(buf: seq<uint8>, w: nat): int32
    requires 4 * w + 4 <= |buf|
  {
    ToInt32(WordAt(buf, w))
  }

  /** Writing back the signed `int` read at word `w` restores its four bytes. */
  lemma Int32AtBytes(buf: seq<uint8>, w: nat)
    requires 4 * w + 4 <= |buf|
    ensures ToBytesLE(FromInt32(Int32At(buf, w))) == buf[4 * w .. 4 * w + 4]
  {
    WordAtBytes(buf, w);
    ToFromBytesLE(buf[4 * w .. 4 * w + 4]);
    Int32RoundTrip(Int32At(buf, w), WordAt(buf, w));
  }

  /** Byte `c` of the in-memory word `w` is byte `c` of that word's value. */
  lemma MemoryByteOfWord(buf: seq<uint8>, w: nat, c: nat)
    requires 4 * w + 4 <= |buf| && c < WORD_BYTES
    ensures buf[4 * w + c] == ByteOf(WordAt(buf, w), c)
  {
    ToFromBytesLE(buf[4 * w .. 4 * w + 4]);
  }

  /** The same, for a word whose value is known. */
  lemma MemoryByteOfKnownWord(buf: seq<uint8>, w: nat, c: nat, x: uint32)
    requires 4 * w + 4 <= |buf| && c < WORD_BYTES && WordAt(buf, w) == x
    ensures buf[4 * w + c] == ByteOf(x, c)
  {
    MemoryByteOfWord(buf, w, c);
  }

  /** The byte image of a sequence of words, as a writer lays them out. */
  function EncodeWords(ws: seq<uint32>): (bs: seq<uint8>)
    ensures |bs| == 4 * |ws|
  {
    if |ws| == 0 then [] else ToBytesLE(ws[0]) + EncodeWords(ws[1..])
  }

  /** Reading word `k` of an encoded sequence gives back its `k`-th word. */
  lemma {:induction false} WordAtEncodeWords(ws: seq<uint32>, k: nat)
    requires k < |ws|
    ensures WordAt(EncodeWords(ws), k) == ws[k]
  {
    var bs := EncodeWords(ws);
    if k == 0 {
      assert bs[0 .. WORD_BYTES] == ToBytesLE(ws[0]);
      FromToBytesLE(ws[0]);
    } else {
      var tail := EncodeWords(ws[1..]);
      WordAtEncodeWords(ws[1..], k - 1);
      assert bs == ToBytesLE(ws[0]) + tail;
      assert bs[4 * k .. 4 * k + 4]
          == tail[4 * (k - 1) .. 4 * (k - 1) + 4];
    }
  }
}

=== FILE: decoder.dfy ===
/**
  The octree layout decoder: reads the header of a byte buffer and produces
  bounds-checked views (word offset and element count) over its sections.

  The converter reads every section through unchecked pointer casts and
  checks no bounds. This decoder stops with an error on a short buffer, on a
  negative count, and on a node_num_accu[depth] that does not select F keys
  inside the key section. A short header always stands for a read outside the
  buffer, and a buffer that ends before the normals does so when F > 0; the
  other rejections also cover some files the converter reads entirely inside
  the buffer.
 */
module Decoder {
  import opened Wrappers
  import opened Bytes
  import opened Layout

  const HEADER_BYTES: nat := 4 * HEADER_WORDS

  datatype DecodeError =
    | TruncatedHeader         // fewer than the four header words
    | NegativeHeaderField     // a negative total count, finest count or depth
    | TruncatedBuffer         // the buffer ends before the normals do
    | FinestRangeOutOfBounds  // node_num_accu[depth] does not select F keys inside the key section

  /** A typed, read-only window of `count` words starting at word `start`. */
  datatype View = View(start: nat, count: nat) {
    function End(): nat {
      start + count
    }
  }

  predicate InBuffer(buf: seq<uint8>, v: View) {
    4 * v.End() <= |buf|
  }

  /** What became of the label section. */
  datatype LabelState =
    | NotRequested
    | LabelsValid             // requested, and the buffer length passes the size formula
    | InvalidLabelLayout      // requested, but the buffer length fails the size formula

  /** A decoded octree buffer: its header, node_num_accu[depth] (the first
      finest-depth node within the key and children sections) and the state of
      the label section. Every section view follows from the header. */
  datatype Octree = Octree(header: Header, finestBase: nat, labels: LabelState)
  {
    function NodeNum(): View
      requires NonNegative(header)
    {
      View(SectionOffsets(header).nodeNum, header.depth + 1)
    }

    function NodeNumAccu(): View
      requires NonNegative(header)
    {
      View(SectionOffsets(header).nodeNumAccu, header.depth + 2)
    }

    function Key(): View
      requires NonNegative(header)
    {
      View(SectionOffsets(header).key, header.totalNodes)
    }

    function Children(): View
      requires NonNegative(header)
    {
      View(SectionOffsets(header).children, header.totalNodes)
    }

    function Data(): View
      requires NonNegative(header)
    {
      View(SectionOffsets(header).data, 3 * header.finalNodes)
    }

    function Labels(): View
      requires NonNegative(header)
    {
      View(SectionOffsets(header).labels, header.finalNodes)
    }
  }

  /** The header's counts are sizes, the buffer holds every section up to the
      normals (and the label section when it is used), and the finest-depth
      range lies inside the key and children sections. */
  predicate WellFormed(buf: seq<uint8>, t: Octree) {
    && NonNegative(t.header)
    && InBuffer(buf, t.Data())
    && t.finestBase + t.header.finalNodes <= t.header.totalNodes
    && (t.labels.LabelsValid? ==> InBuffer(buf, t.Labels()))
  }

  /** The header words, when the buffer holds them. */
  function ReadHeader(buf: seq<uint8>): Result<Header, DecodeError>
  {
    if |buf| < HEADER_BYTES then Failure(TruncatedHeader)
    else Success(Header(Int32At(buf, 0), Int32At(buf, 1), Int32At(buf, 2), Int32At(buf, 3)))
  }

  /** A header that was read fits four `int` words, and writing them back
      reproduces the buffer's first 16 bytes. */
  lemma ReadHeaderBytes(buf: seq<uint8>)
    ensures ReadHeader(buf).Success? ==>
      var h := ReadHeader(buf).value;
      && IsInt32(h.totalNodes) && IsInt32(h.finalNodes) && IsInt32(h.depth) && IsInt32(h.fullLayer)
      && buf[..HEADER_BYTES]
         == ToBytesLE(FromInt32(h.totalNodes)) + ToBytesLE(FromInt32(h.finalNodes))
            + ToBytesLE(FromInt32(h.depth)) + ToBytesLE(FromInt32(h.fullLayer))
  {
    if |buf| >= HEADER_BYTES {
      Int32AtBytes(buf, 0);
      Int32AtBytes(buf, 1);
      Int32AtBytes(buf, 2);
      Int32AtBytes(buf, 3);
      assert buf[..HEADER_BYTES] == buf[0..4] + buf[4..8] + buf[8..12] + buf[12..16];
    }
  }

  /** The label gate: a label section is used only when labels are requested
      and the buffer is exactly as long as the size formula says; a used label
      section starts right after the normals and ends at the end of the buffer. */
  function GateLabels(len: nat, h: Header, hasLabel: bool): (g: LabelState)
    requires NonNegative(h)
    ensures g.NotRequested? <==> !hasLabel
    ensures g.LabelsValid? <==> hasLabel && len == ExpectedLabelledBytes(h)
    ensures g.LabelsValid? ==> 4 * (SectionOffsets(h).data + 4 * h.finalNodes) == len
  {
    if !hasLabel then NotRequested
    else if len == ExpectedLabelledBytes(h) then LabelsValid
    else InvalidLabelLayout
  }

  /** Decode the layout of an octree buffer. */
  function Decode(buf: seq<uint8>, hasLabel: bool): (r: Result<Octree, DecodeError>)
    ensures r == Failure(TruncatedHeader) <==> |buf| < HEADER_BYTES
    ensures r.Success? ==> WellFormed(buf, r.value)
    ensures r.Success? ==>
      var t := r.value;
      var h := t.header;
      && ReadHeader(buf) == Success(h)
      && t.NodeNum() == View(StartOf(h, NodeNum), h.depth + 1)
      && t.NodeNumAccu() == View(StartOf(h, NodeNumAccu), h.depth + 2)
      && t.Key() == View(StartOf(h, Key), h.totalNodes)
      && t.Children() == View(StartOf(h, Children), h.totalNodes)
      && t.Data() == View(StartOf(h, Data), 3 * h.finalNodes)
      && t.Labels() == View(StartOf(h, Label), h.finalNodes)
      && t.finestBase == Int32At(buf, t.NodeNumAccu().start + h.depth)
      && t.labels == GateLabels(|buf|, h, hasLabel)
    ensures r == Failure(NegativeHeaderField) <==>
      ReadHeader(buf).Success? && !NonNegative(ReadHeader(buf).value)
    ensures r == Failure(TruncatedBuffer) <==>
      ReadHeader(buf).Success? && NonNegative(ReadHeader(buf).value)
      && |buf| < 4 * StartOf(ReadHeader(buf).value, Label)
  {
    var h :- ReadHeader(buf);
    if !NonNegative(h) then Failure(NegativeHeaderField)
    else
      OffsetsFollowSectionTable(h);
      if |buf| < UnlabelledBytes(h) then Failure(TruncatedBuffer)
      else
        var base := Int32At(buf, SectionOffsets(h).nodeNumAccu + h.depth);
        if base < 0 || base + h.finalNodes > h.totalNodes then Failure(FinestRangeOutOfBounds)
        else Success(Octree(h, base, GateLabels(|buf|, h, hasLabel)))
  }

  /** A buffer whose header words are sizes, which holds every section up to
      the normals, and whose node_num_accu[depth] selects an in-range run of
      keys, decodes. */
  lemma DecodeAccepts(buf: seq<uint8>, hasLabel: bool, h: Header, base: int)
    requires ReadHeader(buf) == Success(h) && NonNegative(h)
    requires UnlabelledBytes(h) <= |buf|
    requires Int32At(buf, SectionOffsets(h).nodeNumAccu + h.depth) == base
    requires 0 <= base && base + h.finalNodes <= h.totalNodes
    ensures Decode(buf, hasLabel) == Success(Octree(h, base, GateLabels(|buf|, h, hasLabel)))
  {
  }
}

=== FILE: encoder.dfy ===
/**
  The writer's side of the octree file: the sections laid out one after the
  other as 32-bit little-endian words, in the order the decoder expects.
  Reading an encoded file back gives every finest-depth key, normal and
  label that was written.
 */
module Encoder {
  import opened Wrappers
  import opened Bytes
  import opened Layout
  import opened Decoder
  import opened Reconstruct
  import opened Properties

  /** The content of an octree file, section by section. Signed sections hold
      `int` values, keys and normals hold raw words. */
  datatype OctreeFile = OctreeFile(
    header: Header,
    nodeNum: seq<int32>,
    nodeNumAccu: seq<int32>,
    keys: seq<uint32>,
    children: seq<int32>,
    normals: seq<uint32>,
    labels: seq<int32>)

  /** The header fits its four `int` words and sizes the sections, and
      node_num_accu[depth] selects a run of F keys inside the key
      section. Any number of label words may follow the normals. */
  predicate Consistent(o: OctreeFile) {
    var h := o.header;
    && NonNegative(h)
    && IsInt32(h.totalNodes) && IsInt32(h.finalNodes) && IsInt32(h.depth) && IsInt32(h.fullLayer)
    && |o.nodeNum| == h.depth + 1
    && |o.nodeNumAccu| == h.depth + 2
    && |o.keys| == h.totalNodes
    && |o.children| == h.totalNodes
    && |o.normals| == 3 * h.finalNodes
    && 0 <= o.nodeNumAccu[h.depth]
    && o.nodeNumAccu[h.depth] + h.finalNodes <= h.totalNodes
  }

  /** Signed values as the words that hold them. */
  function SignedWords(xs: seq<int32>): (ws: seq<uint32>)
    ensures |ws| == |xs|
    ensures forall k :: 0 <= k < |xs| ==> ToInt32(ws[k]) == xs[k]
  {
    seq(|xs|, k requires 0 <= k < |xs| => FromInt32(xs[k]))
  }

  function HeaderImage(h: Header): (ws: seq<uint32>)
    requires IsInt32(h.totalNodes) && IsInt32(h.finalNodes) && IsInt32(h.depth) && IsInt32(h.fullLayer)
    ensures |ws| == HEADER_WORDS
    ensures ToInt32(ws[0]) == h.totalNodes && ToInt32(ws[1]) == h.finalNodes
    ensures ToInt32(ws[2]) == h.depth && ToInt32(ws[3]) == h.fullLayer
  {
    [FromInt32(h.totalNodes), FromInt32(h.finalNodes), FromInt32(h.depth), FromInt32(h.fullLayer)]
  }

  /** Every word of the file, sections in stored order. */
  function FileWords(o: OctreeFile): (ws: seq<uint32>)
    requires Consistent(o)
    ensures |ws| == SectionOffsets(o.header).labels + |o.labels|
  {
    HeaderImage(o.header) + SignedWords(o.nodeNum) + SignedWords(o.nodeNumAccu) + o.keys
      + SignedWords(o.children) + o.normals + SignedWords(o.labels)
  }

  /** The bytes of the file. */
  function Encode(o: OctreeFile): (buf: seq<uint8>)
    requires Consistent(o)
    ensures |buf| == 4 * (SectionOffsets(o.header).labels + |o.labels|)
  {
    EncodeWords(FileWords(o))
  }

  /** The size formula accepts an encoded file exactly when it carries one
      label per finest node. */
  lemma EncodedLengthGate(o: OctreeFile)
    requires Consistent(o)
    ensures |Encode(o)| == ExpectedLabelledBytes(o.header) <==> |o.labels| == o.header.finalNodes
  {
    SizeFormulaMatchesSectionTable(o.header);
  }

  /** Word `w` of the encoded file, read back as a signed `int`. */
  lemma SignedWordRead(o: OctreeFile, w: nat, x: int32)
    requires Consistent(o) && w < |FileWords(o)| && ToInt32(FileWords(o)[w]) == x
    ensures 4 * w + 4 <= |Encode(o)| && Int32At(Encode(o), w) == x
  {
    WordAtEncodeWords(FileWords(o), w);
  }

  lemma HeaderRead(o: OctreeFile)
    requires Consistent(o)
    ensures ReadHeader(Encode(o)) == Success(o.header)
  {
    var ws := FileWords(o);
    var img := HeaderImage(o.header);
    assert ws[0] == img[0] && ws[1] == img[1] && ws[2] == img[2] && ws[3] == img[3];
    SignedWordRead(o, 0, o.header.totalNodes);
    SignedWordRead(o, 1, o.header.finalNodes);
    SignedWordRead(o, 2, o.header.depth);
    SignedWordRead(o, 3, o.header.fullLayer);
  }

  lemma AccuWordRead(o: OctreeFile)
    requires Consistent(o)
    ensures
      var w := SectionOffsets(o.header).nodeNumAccu + o.header.depth;
      4 * w + 4 <= |Encode(o)| && Int32At(Encode(o), w) == o.nodeNumAccu[o.header.depth]
  {
    var h := o.header;
    var prefix := HeaderImage(h) + SignedWords(o.nodeNum);
    var ws := FileWords(o);
    var w := SectionOffsets(h).nodeNumAccu + h.depth;
    assert ws[..|prefix| + |o.nodeNumAccu|] == prefix + SignedWords(o.nodeNumAccu);
    assert ws[w] == SignedWords(o.nodeNumAccu)[h.depth];
    SignedWordRead(o, w, o.nodeNumAccu[h.depth]);
  }

  /** Encoding a consistent file and decoding it gives back its header and
      finest-depth base; the label section is used exactly when labels are
      requested and one was written per finest node. */
  lemma EncodeThenDecode(o: OctreeFile, hasLabel: bool)
    requires Consistent(o)
    ensures Decode(Encode(o), hasLabel) == Success(EncodedOctree(o, hasLabel))
  {
    HeaderRead(o);
    AccuWordRead(o);
    EncodedLengthGate(o);
    DecodeAccepts(Encode(o), hasLabel, o.header, o.nodeNumAccu[o.header.depth]);
  }

  /** Key `k` of an encoded file. */
  lemma KeyWordRead(o: OctreeFile, k: nat)
    requires Consistent(o) && k < o.header.totalNodes
    ensures
      var w := SectionOffsets(o.header).key + k;
      4 * w + 4 <= |Encode(o)| && WordAt(Encode(o), w) == o.keys[k]
  {
    var h := o.header;
    var prefix := HeaderImage(h) + SignedWords(o.nodeNum) + SignedWords(o.nodeNumAccu);
    var ws := FileWords(o);
    assert ws[..|prefix| + |o.keys|] == prefix + o.keys;
    WordAtEncodeWords(ws, SectionOffsets(h).key + k);
  }

  /** Word `k` of the normals of an encoded file. */
  lemma NormalWordRead(o: OctreeFile, k: nat)
    requires Consistent(o) && k < 3 * o.header.finalNodes
    ensures
      var w := SectionOffsets(o.header).data + k;
      4 * w + 4 <= |Encode(o)| && WordAt(Encode(o), w) == o.normals[k]
  {
    var h := o.header;
    var prefix := HeaderImage(h) + SignedWords(o.nodeNum) + SignedWords(o.nodeNumAccu) + o.keys
      + SignedWords(o.children);
    var ws := FileWords(o);
    assert ws[..|prefix| + |o.normals|] == prefix + o.normals;
    WordAtEncodeWords(ws, SectionOffsets(h).data + k);
  }

  /** Label `k` of an encoded file. */
  lemma LabelWordRead(o: OctreeFile, k: nat)
    requires Consistent(o) && k < |o.labels|
    ensures
      var w := SectionOffsets(o.header).labels + k;
      4 * w + 4 <= |Encode(o)| && Int32At(Encode(o), w) == o.labels[k]
  {
    var w := SectionOffsets(o.header).labels + k;
    assert FileWords(o)[w] == SignedWords(o.labels)[k];
    SignedWordRead(o, w, o.labels[k]);
  }

  /** The octree an encoded file decodes to, whatever its label state. */
  predicate DecodedFrom(t: Octree, o: OctreeFile) {
    t.header == o.header && 0 <= o.header.depth < |o.nodeNumAccu|
    && t.finestBase == o.nodeNumAccu[o.header.depth]
  }

  /** The octree an encoded file decodes to. */
  function EncodedOctree(o: OctreeFile, hasLabel: bool): (t: Octree)
    requires Consistent(o)
    ensures DecodedFrom(t, o)
  {
    Octree(o.header, o.nodeNumAccu[o.header.depth],
      if !hasLabel then NotRequested
      else if |o.labels| == o.header.finalNodes then LabelsValid
      else InvalidLabelLayout)
  }

  lemma ConvertEncoded(o: OctreeFile, hasLabel: bool)
    requires Consistent(o)
    ensures WellFormed(Encode(o), EncodedOctree(o, hasLabel))
    ensures Convert(Encode(o), hasLabel) == Success(ReconstructPoints(Encode(o), EncodedOctree(o, hasLabel)))
  {
    EncodeThenDecode(o, hasLabel);
    ConvertReconstructsDecoded(Encode(o), hasLabel, EncodedOctree(o, hasLabel));
  }

  lemma EncodedPointAt(o: OctreeFile, t: Octree, i: nat, c: nat)
    requires Consistent(o) && WellFormed(Encode(o), t) && DecodedFrom(t, o)
    requires i < o.header.finalNodes && c < 3
    ensures EmitPoints(Encode(o), t, o.header.finalNodes)[3 * i + c]
         == ByteOf(o.keys[t.finestBase + i], c) as real + 0.5
  {
    var buf := Encode(o);
    var w := KeyWord(buf, t, i);
    var key := o.keys[t.finestBase + i];
    assert w == SectionOffsets(o.header).key + (t.finestBase + i);
    KeyWordRead(o, t.finestBase + i);
    MemoryByteOfKnownWord(buf, w, c, key);
    assert PointCoordinate(buf, t, i, c) == buf[4 * w + c] as real + 0.5;
    EmitPointsAt(buf, t, o.header.finalNodes, i, c);
  }

  lemma EncodedNormalAt(o: OctreeFile, t: Octree, i: nat, c: nat)
    requires Consistent(o) && WellFormed(Encode(o), t) && DecodedFrom(t, o)
    requires i < o.header.finalNodes && c < 3
    ensures ComponentBlock(o.header.finalNodes, c) + i < |o.normals|
    ensures EmitNormals(Encode(o), t, o.header.finalNodes)[3 * i + c]
         == o.normals[ComponentBlock(o.header.finalNodes, c) + i]
  {
    var f := o.header.finalNodes;
    ComponentBlockIsProduct(f, c);
    NormalWordRead(o, ComponentBlock(f, c) + i);
    EmitNormalsAt(Encode(o), t, f, i, c);
  }

  /** Point `i` of an encoded file is made of the low three bytes of the key
      of finest node `i`. */
  lemma EncodedPoint(o: OctreeFile, hasLabel: bool, i: nat, c: nat)
    requires Consistent(o) && i < o.header.finalNodes && c < 3
    ensures Convert(Encode(o), hasLabel).Success?
    ensures
      var points := Convert(Encode(o), hasLabel).value.points;
      3 * i + c < |points| && points[3 * i + c] == ByteOf(o.keys[o.nodeNumAccu[o.header.depth] + i], c) as real + 0.5
  {
    var buf, t := Encode(o), EncodedOctree(o, hasLabel);
    ConvertEncoded(o, hasLabel);
    var points := EmitPoints(buf, t, o.header.finalNodes);
    assert Convert(buf, hasLabel).value.points == points;
    EncodedPointAt(o, t, i, c);
    assert points[3 * i + c] == ByteOf(o.keys[t.finestBase + i], c) as real + 0.5;
  }

  /** Component `c` of normal `i` of an encoded file is word `i` of the
      `c`-th block of normals. */
  lemma EncodedNormal(o: OctreeFile, hasLabel: bool, i: nat, c: nat)
    requires Consistent(o) && i < o.header.finalNodes && c < 3
    ensures Convert(Encode(o), hasLabel).Success?
    ensures ComponentBlock(o.header.finalNodes, c) + i < |o.normals|
    ensures
      var normals := Convert(Encode(o), hasLabel).value.normals;
      3 * i + c < |normals| && normals[3 * i + c] == o.normals[ComponentBlock(o.header.finalNodes, c) + i]
  {
    var t := EncodedOctree(o, hasLabel);
    ConvertEncoded(o, hasLabel);
    EncodedNormalAt(o, t, i, c);
  }

  lemma EncodedLabelsRead(o: OctreeFile, t: Octree)
    requires Consistent(o) && WellFormed(Encode(o), t) && DecodedFrom(t, o)
    requires t.labels.LabelsValid? && |o.labels| == o.header.finalNodes
    ensures EmitLabels(Encode(o), t, o.header.finalNodes) == o.labels
  {
    var buf := Encode(o);
    var f := o.header.finalNodes;
    var ls := EmitLabels(buf, t, f);
    forall k | 0 <= k < f
      ensures ls[k] == o.labels[k]
    {
      EmitLabelsAt(buf, t, f, k);
      LabelWordRead(o, k);
    }
  }

  /** The labels of an encoded file come back when they were requested and
      one was written per finest node; otherwise none are emitted. */
  lemma EncodedLabels(o: OctreeFile, hasLabel: bool)
    requires Consistent(o)
    ensures Convert(Encode(o), hasLabel).Success?
    ensures Convert(Encode(o), hasLabel).value.labels ==
      if hasLabel && |o.labels| == o.header.finalNodes then o.labels else []
  {
    var t := EncodedOctree(o, hasLabel);
    ConvertEncoded(o, hasLabel);
    if t.labels.LabelsValid? {
      EncodedLabelsRead(o, t);
    }
  }
}

=== FILE: layout.dfy ===
/**
  The fixed section layout of a binary octree file.

  The file has no magic number and no version: four header words fix where
  every later section starts. All offsets here are counted in 32-bit words
  from the start of the buffer.
 */
module Layout {
  import opened Bytes

  /** The four header words: total node count, finest-depth node count,
      depth, and the fully populated depth (read but never used). */
  datatype Header = Header(totalNodes: int, finalNodes: int, depth: int, fullLayer: int)

  const HEADER_WORDS: nat := 4

  /** Counts that can size a section: the source never checks the sign. */
  predicate NonNegative(h: Header) {
    h.totalNodes >= 0 && h.finalNodes >= 0 && h.depth >= 0
  }

  /** The sections of the file, in the order they are stored. */
  datatype Section = HeaderWords | NodeNum | NodeNumAccu | Key | Children | Data | Label

  const SECTION_ORDER: seq<Section> := [HeaderWords, NodeNum, NodeNumAccu, Key, Children, Data, Label]

  /** Number of words a section holds. */
  function WordCount(h: Header, s: Section): nat
    requires NonNegative(h)
  {
    match s
    case HeaderWords => HEADER_WORDS
    case NodeNum => h.depth + 1
    case NodeNumAccu => h.depth + 2
    case Key => h.totalNodes
    case Children => h.totalNodes
    case Data => 3 * h.finalNodes
    case Label => h.finalNodes
  }

  /** Words taken by the first `n` sections of the table. */
  function WordsBefore(h: Header, n: nat): nat
    requires NonNegative(h) && n <= |SECTION_ORDER|
  {
    if n == 0 then 0 else WordsBefore(h, n - 1) + WordCount(h, SECTION_ORDER[n - 1])
  }

  /** Position of a section in the table. */
  function IndexOf(s: Section): (n: nat)
    ensures n < |SECTION_ORDER| && SECTION_ORDER[n] == s
  {
    match s
    case HeaderWords => 0
    case NodeNum => 1
    case NodeNumAccu => 2
    case Key => 3
    case Children => 4
    case Data => 5
    case Label => 6
  }

  /** First word of a section: the sum of the sizes of all sections before it. */
  function StartOf(h: Header, s: Section): nat
    requires NonNegative(h)
  {
    WordsBefore(h, IndexOf(s))
  }

  /** Section starts as the converter derives them, each pointer advanced
      past the section before it. */
  datatype Offsets = Offsets(nodeNum: nat, nodeNumAccu: nat, key: nat, children: nat, data: nat, labels: nat)

  function SectionOffsets(h: Header): (o: Offsets)
    requires NonNegative(h)
    ensures o.nodeNum == 4
    ensures o.nodeNumAccu == 4 + h.depth + 1
    ensures o.key == 2 * h.depth + 7
    ensures o.children == 2 * h.depth + 7 + h.totalNodes
    ensures o.data == 2 * h.depth + 7 + 2 * h.totalNodes
    ensures o.labels == o.data + 3 * h.finalNodes
  {
    var nodeNum := HEADER_WORDS;
    var nodeNumAccu := nodeNum + h.depth + 1;
    var key := nodeNumAccu + h.depth + 2;
    var children := key + h.totalNodes;
    var data := children + h.totalNodes;
    Offsets(nodeNum, nodeNumAccu, key, children, data, data + 3 * h.finalNodes)
  }

  /** The pointer walk agrees with the section table: every section starts
      where the sections before it end. */
  lemma OffsetsFollowSectionTable(h: Header)
    requires NonNegative(h)
    ensures SectionOffsets(h).nodeNum == StartOf(h, NodeNum)
    ensures SectionOffsets(h).nodeNumAccu == StartOf(h, NodeNumAccu)
    ensures SectionOffsets(h).key == StartOf(h, Key)
    ensures SectionOffsets(h).children == StartOf(h, Children)
    ensures SectionOffsets(h).data == StartOf(h, Data)
    ensures SectionOffsets(h).labels == StartOf(h, Label)
  {
    assert WordsBefore(h, 1) == 4;
    assert WordsBefore(h, 2) == 4 + h.depth + 1;
    assert WordsBefore(h, 3) == 2 * h.depth + 7;
    assert WordsBefore(h, 4) == 2 * h.depth + 7 + h.totalNodes;
    assert WordsBefore(h, 5) == 2 * h.depth + 7 + 2 * h.totalNodes;
    assert WordsBefore(h, 6) == 2 * h.depth + 7 + 2 * h.totalNodes + 3 * h.finalNodes;
  }

  /** Byte length the converter expects of a file that carries labels. */
  function ExpectedLabelledBytes(h: Header): int
  {
    (2 * h.depth + 7 + 2 * h.totalNodes + 4 * h.finalNodes) * 4
  }

  /** Byte length of everything up to the end of the normals. */
  function UnlabelledBytes(h: Header): nat
    requires NonNegative(h)
  {
    4 * SectionOffsets(h).labels
  }

  /** The size formula is exactly the end of the last section of the table,
      and a label section placed after the normals ends there too. */
  lemma SizeFormulaMatchesSectionTable(h: Header)
    requires NonNegative(h)
    ensures ExpectedLabelledBytes(h) == 4 * WordsBefore(h, |SECTION_ORDER|)
    ensures ExpectedLabelledBytes(h) == 4 * (SectionOffsets(h).labels + h.finalNodes)
    ensures ExpectedLabelledBytes(h) == UnlabelledBytes(h) + 4 * h.finalNodes
  {
    OffsetsFollowSectionTable(h);
    assert WordsBefore(h, 7) == WordsBefore(h, 6) + h.finalNodes;
  }

  /** The label gate as the compiled converter evaluates it: the word count in
      32-bit `int`, scaled by `sizeof(int)` as a 64-bit `size_t`, stored back
      into an `int`, and compared with the buffer size after conversion back
      to `size_t`. */
  predicate CompiledLabelGate(len: nat, h: Header) {
    var words := Wrap32(2 * h.depth + 7 + 2 * h.totalNodes + 4 * h.finalNodes);
    var sz := Wrap32(WrapSizeT(words * 4));
    len == WrapSizeT(sz)
  }

  /** For a buffer below 2 GiB that holds every section up to the normals,
      the 32-bit gate accepts exactly when the exact size formula does. */
  lemma CompiledLabelGateAgrees(len: nat, h: Header)
    requires NonNegative(h)
    requires len < 0x8000_0000
    requires UnlabelledBytes(h) <= len
    ensures CompiledLabelGate(len, h) <==> len == ExpectedLabelledBytes(h)
  {
    var w := 2 * h.depth + 7 + 2 * h.totalNodes + 4 * h.finalNodes;
    assert 12 * h.finalNodes <= len;
    assert 4 * w < 0x8000_0000 + 0x8000_0000 / 3 + 1;
    assert Wrap32(w) == w;
    assert WrapSizeT(w * 4) == 4 * w;
    var sz := Wrap32(4 * w);
    if 4 * w < 0x8000_0000 {
      assert sz == 4 * w;
    } else {
      assert sz == 4 * w - TWO_TO_32;
      assert WrapSizeT(sz) == sz + TWO_TO_64;
    }
  }

  /** A `std::vector<char>` holds fewer than 2^63 bytes: its `max_size()` is
      at most `PTRDIFF_MAX`. */
  const MAX_BUFFER_BYTES: int := TWO_TO_63

  /** From 2 GiB up the 32-bit gate rejects every buffer: the stored `int`
      size is either below 2^31 or, when negative, converts to a `size_t`
      above 2^64 - 2^31. */
  lemma CompiledLabelGateRejectsLarge(len: nat, h: Header)
    requires TWO_TO_31 <= len < MAX_BUFFER_BYTES
    ensures !CompiledLabelGate(len, h)
  {
    var words: int := Wrap32(2 * h.depth + 7 + 2 * h.totalNodes + 4 * h.finalNodes);
    var sz: int := Wrap32(WrapSizeT(words * 4));
    if sz < 0 {
      assert WrapSizeT(sz) == sz + TWO_TO_64;
    }
  }

  /** The 32-bit gate on any buffer that holds the normals: it accepts exactly
      the buffers that match the size formula and are below 2 GiB. */
  lemma CompiledLabelGateExact(len: nat, h: Header)
    requires NonNegative(h)
    requires UnlabelledBytes(h) <= len < MAX_BUFFER_BYTES
    ensures CompiledLabelGate(len, h) <==> len == ExpectedLabelledBytes(h) && len < TWO_TO_31
  {
    if len < TWO_TO_31 {
      CompiledLabelGateAgrees(len, h);
    } else {
      CompiledLabelGateRejectsLarge(len, h);
    }
  }

  /** A correctly labelled file of 2 GiB + 4 bytes (T = 2^28 - 5, F = 1,
      depth 0) that the 32-bit gate rejects: `sz` wraps to -2^31 + 4. */
  lemma LargeLabelledFileRejected(h: Header)
    requires h == Header(0x1000_0000 - 5, 1, 0, 0)
    ensures ExpectedLabelledBytes(h) == TWO_TO_31 + 4
    ensures !CompiledLabelGate(ExpectedLabelledBytes(h), h)
  {
    CompiledLabelGateRejectsLarge(ExpectedLabelledBytes(h), h);
  }
}

=== FILE: paths.dfy ===
/**
  Output paths of the converter. The point cloud goes next to the input,
  with everything from the last '.' of the input path replaced by ".ply"; the
  labels go to the point cloud path followed by ".label.txt".

  The last '.' is searched for in the whole path, directory names included.
 */
module Paths {
  import opened Wrappers

  const PLY_EXTENSION: string := ".ply"
  const LABEL_SUFFIX: string := ".label.txt"

  /** Position of the last occurrence of `ch` in `s`, if any. */
  function LastIndexOf(s: string, ch: char): (r: Option<nat>)
    ensures r.None? <==> ch !in s
    ensures r.Some? ==> r.value < |s| && s[r.value] == ch
    ensures r.Some? ==> forall k :: r.value < k < |s| ==> s[k] != ch
  {
    if |s| == 0 then None
    else if s[|s| - 1] == ch then Some(|s| - 1)
    else
      var r := LastIndexOf(s[..|s| - 1], ch);
      assert ch in s[..|s| - 1] ==> ch in s;
      assert ch in s ==> ch in s[..|s| - 1] by {
        if ch in s {
          var k :| 0 <= k < |s| && s[k] == ch;
          assert s[..|s| - 1][k] == ch;
        }
      }
      r
  }

  /** The point cloud path for an input path. */
  function PlyPath(input: string): (p: string)
    ensures |p| >= |PLY_EXTENSION| && p[|p| - |PLY_EXTENSION|..] == PLY_EXTENSION
    ensures
      var stem := p[..|p| - |PLY_EXTENSION|];
      && stem <= input
      && (stem == input <==> '.' !in input)
      && (stem != input ==> input[|stem|] == '.' && '.' !in input[|stem| + 1..])
  {
    match LastIndexOf(input, '.')
    case None => input + PLY_EXTENSION
    case Some(k) => input[..k] + PLY_EXTENSION
  }

  /** The label path for a point cloud path. */
  function LabelPath(ply: string): string
  {
    ply + LABEL_SUFFIX
  }

  /** An input named `stem` plus an extension gets the extension replaced,
      whatever dots the stem holds. */
  lemma PlyPathReplacesExtension(stem: string, ext: string)
    requires |ext| >= 1 && ext[0] == '.' && '.' !in ext[1..]
    ensures PlyPath(stem + ext) == stem + PLY_EXTENSION
  {
    var input := stem + ext;
    assert input[|stem|] == '.';
    assert forall k :: |stem| < k < |input| ==> input[k] == ext[1..][k - |stem| - 1];
    assert input[..|stem|] == stem;
  }

  /** An input without any '.' keeps its whole name. */
  lemma PlyPathWithoutDot(input: string)
    requires '.' !in input
    ensures PlyPath(input) == input + PLY_EXTENSION
  {
  }

  /** Deriving the point cloud path from a point cloud path changes nothing. */
  lemma PlyPathIdempotent(input: string)
    ensures PlyPath(PlyPath(input)) == PlyPath(input)
  {
    var p := PlyPath(input);
    var stem := p[..|p| - |PLY_EXTENSION|];
    assert p == stem + PLY_EXTENSION;
    assert '.' !in PLY_EXTENSION[1..];
    PlyPathReplacesExtension(stem, PLY_EXTENSION);
  }

  /** The label file of an input named `stem` plus an extension. */
  lemma LabelPathOfInput(stem: string, ext: string)
    requires |ext| >= 1 && ext[0] == '.' && '.' !in ext[1..]
    ensures LabelPath(PlyPath(stem + ext)) == stem + ".ply.label.txt"
  {
    PlyPathReplacesExtension(stem, ext);
  }

  /** A dot in a directory name counts when the file name has none: the
      point cloud of "scans.v2/chair" is written to "scans.ply", as if the
      input were "scans.v2". */
  lemma DotInDirectoryName(dir: string, name: string)
    requires '.' in dir && '.' !in name
    ensures PlyPath(dir + "/" + name) == PlyPath(dir)
  {
    var k := LastIndexOf(dir, '.').value;
    var stem, ext := dir[..k], dir[k..];
    assert dir == stem + ext;
    assert '.' !in ext[1..] by {
      forall m | 0 <= m < |ext[1..]|
        ensures ext[1..][m] != '.'
      {
        assert ext[1..][m] == dir[k + 1 + m];
      }
    }
    PlyPathReplacesExtension(stem, ext);
    var ext' := ext + "/" + name;
    assert dir + "/" + name == stem + ext';
    assert ext'[1..] == ext[1..] + "/" + name;
    PlyPathReplacesExtension(stem, ext');
  }
}

=== FILE: properties.dfy ===
/**
  Properties of the whole conversion: what each output element is, which
  bytes of the buffer it depends on, and which it ignores.
 */
module Properties {
  import opened Wrappers
  import opened Bytes
  import opened Layout
  import opened Decoder
  import opened Reconstruct

  /** Bytes `lo .. hi-1` exist in both buffers and are the same. */
  predicate AgreeOn(a: seq<uint8>, b: seq<uint8>, lo: nat, hi: nat) {
    hi <= |a| && hi <= |b| && forall k :: lo <= k < hi ==> a[k] == b[k]
  }

  lemma WordAtAgree(a: seq<uint8>, b: seq<uint8>, w: nat)
    requires AgreeOn(a, b, 4 * w, 4 * w + 4)
    ensures WordAt(a, w) == WordAt(b, w)
  {
    assert a[4 * w .. 4 * w + 4] == b[4 * w .. 4 * w + 4];
  }

  /** Point `i` is read from the memory bytes of the key word of finest node
      `i` (word node_num_accu[depth] + i of the key section): component `c` is
      byte `c` plus one half. */
  lemma PointsFromKeyBytes(buf: seq<uint8>, t: Octree, i: nat)
    requires WellFormed(buf, t) && i < t.header.finalNodes
    ensures
      var key := t.Key().start + t.finestBase + i;
      var out := ReconstructPoints(buf, t);
      && 4 * key + 4 <= |buf|
      && out.points[3 * i] == buf[4 * key] as real + 0.5
      && out.points[3 * i + 1] == buf[4 * key + 1] as real + 0.5
      && out.points[3 * i + 2] == buf[4 * key + 2] as real + 0.5
  {
    var out := ReconstructPoints(buf, t);
    EmitPointsAt(buf, t, t.header.finalNodes, i, 0);
    EmitPointsAt(buf, t, t.header.finalNodes, i, 1);
    EmitPointsAt(buf, t, t.header.finalNodes, i, 2);
  }

  /** Component `c` of normal `i` is word `i` of component block `c`. */
  lemma NormalFromBlock(buf: seq<uint8>, t: Octree, i: nat, c: nat)
    requires WellFormed(buf, t) && i < t.header.finalNodes && c < 3
    ensures 4 * (t.Data().start + ComponentBlock(t.header.finalNodes, c) + i) + 4 <= |buf|
    ensures ReconstructPoints(buf, t).normals[3 * i + c]
         == WordAt(buf, t.Data().start + ComponentBlock(t.header.finalNodes, c) + i)
  {
    EmitNormalsAt(buf, t, t.header.finalNodes, i, c);
  }

  /** Component `c` of normal `i` is data word `c*F + i`. */
  lemma NormalsGathered(buf: seq<uint8>, t: Octree, i: nat)
    requires WellFormed(buf, t) && i < t.header.finalNodes
    ensures
      var f := t.header.finalNodes;
      var out := ReconstructPoints(buf, t);
      && 4 * (t.Data().start + 2 * f + i) + 4 <= |buf|
      && out.normals[3 * i] == WordAt(buf, t.Data().start + i)
      && out.normals[3 * i + 1] == WordAt(buf, t.Data().start + f + i)
      && out.normals[3 * i + 2] == WordAt(buf, t.Data().start + 2 * f + i)
  {
    NormalFromBlock(buf, t, i, 0);
    NormalFromBlock(buf, t, i, 1);
    NormalFromBlock(buf, t, i, 2);
  }

  /** With a valid label section, label `i` is word `i` of the section that
      starts right after the normals. */
  lemma LabelsCopied(buf: seq<uint8>, t: Octree, i: nat)
    requires WellFormed(buf, t) && t.labels.LabelsValid? && i < t.header.finalNodes
    ensures
      var f := t.header.finalNodes;
      && 4 * (t.Data().start + 3 * f + i) + 4 <= |buf|
      && ReconstructPoints(buf, t).labels[i] == Int32At(buf, t.Data().start + 3 * f + i)
  {
    var out := ReconstructPoints(buf, t);
    assert out.labels == EmitLabels(buf, t, t.header.finalNodes);
    EmitLabelsAt(buf, t, t.header.finalNodes, i);
    assert t.Labels().start == t.Data().start + 3 * t.header.finalNodes;
  }

  lemma ConvertReconstructsDecoded(buf: seq<uint8>, hasLabel: bool, t: Octree)
    requires Decode(buf, hasLabel) == Success(t)
    ensures Convert(buf, hasLabel) == Success(ReconstructPoints(buf, t))
  {
  }

  /** Every output element of finest node `i` of a successful conversion,
      stated against the buffer: the point from the key word's bytes, the
      normal from the three component blocks, the label from the label
      section. */
  lemma ConvertOutputs(buf: seq<uint8>, hasLabel: bool, t: Octree, out: PointCloud, i: nat)
    requires Decode(buf, hasLabel) == Success(t)
    requires Convert(buf, hasLabel) == Success(out)
    requires i < t.header.finalNodes
    ensures
      var f := t.header.finalNodes;
      var key := t.Key().start + t.finestBase + i;
      && 4 * key + 4 <= |buf|
      && 4 * (t.Data().start + 2 * f + i) + 4 <= |buf|
      && out.points[3 * i] == buf[4 * key] as real + 0.5
      && out.points[3 * i + 1] == buf[4 * key + 1] as real + 0.5
      && out.points[3 * i + 2] == buf[4 * key + 2] as real + 0.5
      && out.normals[3 * i] == WordAt(buf, t.Data().start + i)
      && out.normals[3 * i + 1] == WordAt(buf, t.Data().start + f + i)
      && out.normals[3 * i + 2] == WordAt(buf, t.Data().start + 2 * f + i)
      && (t.labels.LabelsValid? ==>
            4 * (t.Data().start + 3 * f + i) + 4 <= |buf|
            && out.labels[i] == Int32At(buf, t.Data().start + 3 * f + i))
  {
    ConvertReconstructsDecoded(buf, hasLabel, t);
    PointsFromKeyBytes(buf, t, i);
    NormalsGathered(buf, t, i);
    if t.labels.LabelsValid? {
      LabelsCopied(buf, t, i);
    }
  }

  /** Every coordinate of a converted point cloud lies in the centred byte
      grid 0.5 .. 255.5. */
  lemma PointsInGrid(buf: seq<uint8>, hasLabel: bool, t: Octree, out: PointCloud)
    requires Decode(buf, hasLabel) == Success(t)
    requires Convert(buf, hasLabel) == Success(out)
    ensures forall k :: 0 <= k < |out.points| ==> 0.5 <= out.points[k] <= 255.5
  {
    ConvertReconstructsDecoded(buf, hasLabel, t);
    EmitPointsInGrid(buf, t, t.header.finalNodes);
  }

  /** Asking for labels changes neither whether the buffer decodes nor its
      points and normals. */
  lemma LabelFlagDoesNotAffectGeometry(buf: seq<uint8>)
    ensures Convert(buf, true).Success? <==> Convert(buf, false).Success?
    ensures Convert(buf, false).Success? ==>
      && Convert(buf, true).value.points == Convert(buf, false).value.points
      && Convert(buf, true).value.normals == Convert(buf, false).value.normals
  {
    if Convert(buf, false).Success? {
      var t1 := Decode(buf, true).value;
      var t0 := Decode(buf, false).value;
      ConvertReconstructsDecoded(buf, true, t1);
      ConvertReconstructsDecoded(buf, false, t0);
      assert t1 == t0.(labels := t1.labels);
      EmitPointsSameKeys(buf, t1, t0, t0.header.finalNodes);
      EmitNormalsSameData(buf, t1, t0, t0.header.finalNodes);
    }
  }

  lemma {:induction false} EmitPointsSameKeys(buf: seq<uint8>, t: Octree, u: Octree, n: nat)
    requires WellFormed(buf, t) && WellFormed(buf, u)
    requires t.header == u.header && t.finestBase == u.finestBase
    requires n <= t.header.finalNodes
    ensures EmitPoints(buf, t, n) == EmitPoints(buf, u, n)
  {
    if n > 0 {
      EmitPointsSameKeys(buf, t, u, n - 1);
    }
  }

  lemma {:induction false} EmitNormalsSameData(buf: seq<uint8>, t: Octree, u: Octree, n: nat)
    requires WellFormed(buf, t) && WellFormed(buf, u)
    requires t.header == u.header
    requires n <= t.header.finalNodes
    ensures EmitNormals(buf, t, n) == EmitNormals(buf, u, n)
  {
    if n > 0 {
      EmitNormalsSameData(buf, t, u, n - 1);
      assert NormalWord(buf, t, n - 1, 0) == NormalWord(buf, u, n - 1, 0);
      assert NormalWord(buf, t, n - 1, 1) == NormalWord(buf, u, n - 1, 1);
      assert NormalWord(buf, t, n - 1, 2) == NormalWord(buf, u, n - 1, 2);
    }
  }

  /** The header is read from the first 16 bytes alone. */
  lemma ReadHeaderAgree(buf: seq<uint8>, buf': seq<uint8>)
    requires AgreeOn(buf, buf', 0, HEADER_BYTES)
    ensures ReadHeader(buf') == ReadHeader(buf)
  {
    WordAtAgree(buf, buf', 0);
    WordAtAgree(buf, buf', 1);
    WordAtAgree(buf, buf', 2);
    WordAtAgree(buf, buf', 3);
  }

  /** Decoding reads only the header and node_num_accu[depth], all before the
      key section; the buffer length matters only through the two size checks. */
  lemma DecodeFrame(buf: seq<uint8>, buf': seq<uint8>, hasLabel: bool, t: Octree)
    requires Decode(buf, hasLabel) == Success(t)
    requires AgreeOn(buf, buf', 0, 4 * t.Key().start)
    requires |buf'| == |buf| || (!hasLabel && |buf'| >= |buf|)
    ensures Decode(buf', hasLabel) == Success(t)
  {
    var h := t.header;
    ReadHeaderAgree(buf, buf');
    var accu := SectionOffsets(h).nodeNumAccu + h.depth;
    WordAtAgree(buf, buf', accu);
    assert GateLabels(|buf'|, h, hasLabel) == t.labels;
    DecodeAccepts(buf', hasLabel, h, t.finestBase);
  }

  lemma {:induction false} EmitPointsFrame(buf: seq<uint8>, buf': seq<uint8>, t: Octree, n: nat)
    requires WellFormed(buf, t) && WellFormed(buf', t) && n <= t.header.finalNodes
    requires AgreeOn(buf, buf', 4 * (t.Key().start + t.finestBase),
                     4 * (t.Key().start + t.finestBase + n))
    ensures EmitPoints(buf', t, n) == EmitPoints(buf, t, n)
  {
    if n > 0 {
      EmitPointsFrame(buf, buf', t, n - 1);
      var w := KeyWord(buf, t, n - 1);
      assert buf'[4 * w] == buf[4 * w];
      assert buf'[4 * w + 1] == buf[4 * w + 1];
      assert buf'[4 * w + 2] == buf[4 * w + 2];
    }
  }

  lemma NormalComponentFrame(buf: seq<uint8>, buf': seq<uint8>, t: Octree, i: nat, c: nat)
    requires WellFormed(buf, t) && WellFormed(buf', t) && i < t.header.finalNodes && c < 3
    requires AgreeOn(buf, buf', 4 * t.Data().start, 4 * t.Data().End())
    ensures NormalComponent(buf', t, i, c) == NormalComponent(buf, t, i, c)
  {
    var w := NormalWord(buf, t, i, c);
    assert AgreeOn(buf, buf', 4 * w, 4 * w + 4);
    WordAtAgree(buf, buf', w);
  }

  lemma {:induction false} EmitNormalsFrame(buf: seq<uint8>, buf': seq<uint8>, t: Octree, n: nat)
    requires WellFormed(buf, t) && WellFormed(buf', t) && n <= t.header.finalNodes
    requires AgreeOn(buf, buf', 4 * t.Data().start, 4 * t.Data().End())
    ensures EmitNormals(buf', t, n) == EmitNormals(buf, t, n)
  {
    if n > 0 {
      EmitNormalsFrame(buf, buf', t, n - 1);
      EmitNormalsStepFrame(buf, buf', t, n);
    }
  }

  /** One iteration of the normal loop reads only the data section. */
  lemma EmitNormalsStepFrame(buf: seq<uint8>, buf': seq<uint8>, t: Octree, n: nat)
    requires WellFormed(buf, t) && WellFormed(buf', t) && 0 < n <= t.header.finalNodes
    requires AgreeOn(buf, buf', 4 * t.Data().start, 4 * t.Data().End())
    requires EmitNormals(buf', t, n - 1) == EmitNormals(buf, t, n - 1)
    ensures EmitNormals(buf', t, n) == EmitNormals(buf, t, n)
  {
    NormalComponentFrame(buf, buf', t, n - 1, 0);
    NormalComponentFrame(buf, buf', t, n - 1, 1);
    NormalComponentFrame(buf, buf', t, n - 1, 2);
  }

  lemma {:induction false} EmitLabelsFrame(buf: seq<uint8>, buf': seq<uint8>, t: Octree, n: nat)
    requires WellFormed(buf, t) && WellFormed(buf', t) && t.labels.LabelsValid?
    requires n <= t.header.finalNodes
    requires AgreeOn(buf, buf', 4 * t.Labels().start, 4 * t.Labels().End())
    ensures EmitLabels(buf', t, n) == EmitLabels(buf, t, n)
  {
    if n > 0 {
      EmitLabelsFrame(buf, buf', t, n - 1);
      WordAtAgree(buf, buf', t.Labels().start + n - 1);
    }
  }

  /** Reconstruction reads only the finest-depth keys, the normals and the
      label section. */
  lemma ReconstructFrame(buf: seq<uint8>, buf': seq<uint8>, t: Octree)
    requires WellFormed(buf, t) && WellFormed(buf', t)
    requires AgreeOn(buf, buf', 4 * (t.Key().start + t.finestBase),
                     4 * (t.Key().start + t.finestBase + t.header.finalNodes))
    requires AgreeOn(buf, buf', 4 * t.Data().start, 4 * t.Data().End())
    requires t.labels.LabelsValid? ==> AgreeOn(buf, buf', 4 * t.Labels().start, 4 * t.Labels().End())
    ensures ReconstructPoints(buf', t) == ReconstructPoints(buf, t)
  {
    var f := t.header.finalNodes;
    EmitPointsFrame(buf, buf', t, f);
    EmitNormalsFrame(buf, buf', t, f);
    if t.labels.LabelsValid? {
      EmitLabelsFrame(buf, buf', t, f);
    }
  }

  /** Without labels, bytes after the normals are never read: a buffer that
      converts gives the same result with a label section (or anything else)
      appended. */
  lemma TrailingBytesIgnoredWithoutLabels(buf: seq<uint8>, extra: seq<uint8>)
    requires Convert(buf, false).Success?
    ensures Convert(buf + extra, false) == Convert(buf, false)
  {
    var t := Decode(buf, false).value;
    var buf' := buf + extra;
    assert AgreeOn(buf, buf', 0, |buf|);
    DecodeFrame(buf, buf', false, t);
    ReconstructFrame(buf, buf', t);
    ConvertReconstructsDecoded(buf, false, t);
    ConvertReconstructsDecoded(buf', false, t);
  }

  /** The child pointers are never read: every finest-depth node is emitted
      whatever its child entry holds. */
  lemma ChildrenIgnored(buf: seq<uint8>, buf': seq<uint8>, hasLabel: bool, t: Octree)
    requires Decode(buf, hasLabel) == Success(t)
    requires |buf'| == |buf|
    requires forall k :: 0 <= k < |buf| && !(4 * t.Children().start <= k < 4 * t.Children().End()) ==>
      buf'[k] == buf[k]
    ensures Convert(buf', hasLabel) == Convert(buf, hasLabel)
  {
    DecodeFrame(buf, buf', hasLabel, t);
    ReconstructFrame(buf, buf', t);
    ConvertReconstructsDecoded(buf, hasLabel, t);
    ConvertReconstructsDecoded(buf', hasLabel, t);
  }

  /** Byte `k` of the buffer with words `a` and `b` exchanged. */
  function SwappedByte(buf: seq<uint8>, a: nat, b: nat, k: nat): uint8
    requires 4 * a + 4 <= |buf| && 4 * b + 4 <= |buf| && k < |buf|
  {
    if 4 * a <= k < 4 * a + 4 then buf[4 * b + (k - 4 * a)]
    else if 4 * b <= k < 4 * b + 4 then buf[4 * a + (k - 4 * b)]
    else buf[k]
  }

  /** The buffer with words `a` and `b` exchanged. */
  function SwapWords(buf: seq<uint8>, a: nat, b: nat): (r: seq<uint8>)
    requires 4 * a + 4 <= |buf| && 4 * b + 4 <= |buf|
    ensures |r| == |buf|
  {
    seq(|buf|, k requires 0 <= k < |buf| => SwappedByte(buf, a, b, k))
  }

  /** A flat x, y, z sequence with the triples of points `i` and `j` exchanged. */
  function SwapTriples<T>(s: seq<T>, i: nat, j: nat): (r: seq<T>)
    requires 3 * i + 3 <= |s| && 3 * j + 3 <= |s|
    ensures |r| == |s|
  {
    seq(|s|, k requires 0 <= k < |s| =>
      if k / 3 == i then s[3 * j + k % 3]
      else if k / 3 == j then s[3 * i + k % 3]
      else s[k])
  }

  /** The word a swap moves into position `w`. */
  function SwapPartner(w: nat, a: nat, b: nat): nat {
    if w == a then b else if w == b then a else w
  }

  lemma SwapWordsAt(buf: seq<uint8>, a: nat, b: nat, w: nat, c: nat)
    requires 4 * a + 4 <= |buf| && 4 * b + 4 <= |buf| && 4 * w + 4 <= |buf| && c < 4
    ensures SwapWords(buf, a, b)[4 * w + c] == buf[4 * SwapPartner(w, a, b) + c]
  {
    if w != a {
      assert !(4 * a <= 4 * w + c < 4 * a + 4);
    }
    if w != b {
      assert !(4 * b <= 4 * w + c < 4 * b + 4);
    }
  }

  /** Position `k` of a flat x, y, z sequence is component `c` of point `n`. */
  lemma SplitTriple(k: nat) returns (n: nat, c: nat)
    ensures k == 3 * n + c && c < 3
  {
    n, c := k / 3, k % 3;
  }

  lemma SwapTriplesAt<T>(s: seq<T>, i: nat, j: nat, n: nat, c: nat)
    requires 3 * i + 3 <= |s| && 3 * j + 3 <= |s| && 3 * n + 3 <= |s| && c < 3
    ensures 3 * SwapPartner(n, i, j) + c < |s|
    ensures SwapTriples(s, i, j)[3 * n + c] == s[3 * SwapPartner(n, i, j) + c]
  {
    assert (3 * n + c) / 3 == n && (3 * n + c) % 3 == c;
  }

  /** After the swap, coordinate `c` of point `n` is read from the key word
      that used to belong to the partner node. */
  lemma SwappedCoordinate(buf: seq<uint8>, t: Octree, i: nat, j: nat, n: nat, c: nat)
    requires WellFormed(buf, t) && i < t.header.finalNodes && j < t.header.finalNodes
    requires WellFormed(SwapWords(buf, KeyWord(buf, t, i), KeyWord(buf, t, j)), t)
    requires n < t.header.finalNodes && c < 3
    ensures
      var buf' := SwapWords(buf, KeyWord(buf, t, i), KeyWord(buf, t, j));
      PointCoordinate(buf', t, n, c) == PointCoordinate(buf, t, SwapPartner(n, i, j), c)
  {
    var a, b := KeyWord(buf, t, i), KeyWord(buf, t, j);
    var w := KeyWord(buf, t, n);
    SwapWordsAt(buf, a, b, w, c);
    assert SwapPartner(w, a, b) == KeyWord(buf, t, SwapPartner(n, i, j));
  }

  lemma SwappedPointAt(buf: seq<uint8>, t: Octree, i: nat, j: nat, n: nat, c: nat)
    requires WellFormed(buf, t) && i < t.header.finalNodes && j < t.header.finalNodes
    requires WellFormed(SwapWords(buf, KeyWord(buf, t, i), KeyWord(buf, t, j)), t)
    requires n < t.header.finalNodes && c < 3
    ensures
      var buf' := SwapWords(buf, KeyWord(buf, t, i), KeyWord(buf, t, j));
      var f := t.header.finalNodes;
      EmitPoints(buf', t, f)[3 * n + c] == SwapTriples(EmitPoints(buf, t, f), i, j)[3 * n + c]
  {
    var buf' := SwapWords(buf, KeyWord(buf, t, i), KeyWord(buf, t, j));
    var f := t.header.finalNodes;
    var m := SwapPartner(n, i, j);
    var p := EmitPoints(buf, t, f);
    SwapTriplesAt(p, i, j, n, c);
    assert SwapTriples(p, i, j)[3 * n + c] == p[3 * m + c];
    EmitPointsAt(buf, t, f, m, c);
    SwappedCoordinate(buf, t, i, j, n, c);
    EmitPointsAt(buf', t, f, n, c);
  }

  lemma SwappedPoints(buf: seq<uint8>, t: Octree, i: nat, j: nat)
    requires WellFormed(buf, t) && i < t.header.finalNodes && j < t.header.finalNodes
    requires WellFormed(SwapWords(buf, KeyWord(buf, t, i), KeyWord(buf, t, j)), t)
    ensures
      var buf' := SwapWords(buf, KeyWord(buf, t, i), KeyWord(buf, t, j));
      ReconstructPoints(buf', t).points == SwapTriples(ReconstructPoints(buf, t).points, i, j)
  {
    var buf' := SwapWords(buf, KeyWord(buf, t, i), KeyWord(buf, t, j));
    var f := t.header.finalNodes;
    var p, p' := EmitPoints(buf, t, f), EmitPoints(buf', t, f);
    forall k | 0 <= k < 3 * f
      ensures p'[k] == SwapTriples(p, i, j)[k]
    {
      var n, c := SplitTriple(k);
      SwappedPointAt(buf, t, i, j, n, c);
    }
    assert p' == SwapTriples(p, i, j);
    assert ReconstructPoints(buf, t).points == p;
  }

  /** A swap of two words leaves every byte outside those words alone. */
  lemma SwapWordsAgree(buf: seq<uint8>, a: nat, b: nat, lo: nat, hi: nat)
    requires 4 * a + 4 <= |buf| && 4 * b + 4 <= |buf| && hi <= |buf|
    requires hi <= 4 * a || 4 * a + 4 <= lo
    requires hi <= 4 * b || 4 * b + 4 <= lo
    ensures AgreeOn(buf, SwapWords(buf, a, b), lo, hi)
  {
  }

  /** Swapping two finest-depth keys leaves the header, node_num_accu, the
      normals and the labels where they were. */
  lemma SwapKeepsOtherSections(buf: seq<uint8>, hasLabel: bool, t: Octree, i: nat, j: nat)
    requires Decode(buf, hasLabel) == Success(t)
    requires i < t.header.finalNodes && j < t.header.finalNodes
    ensures
      var buf' := SwapWords(buf, KeyWord(buf, t, i), KeyWord(buf, t, j));
      && Decode(buf', hasLabel) == Success(t)
      && ReconstructPoints(buf', t).normals == ReconstructPoints(buf, t).normals
      && ReconstructPoints(buf', t).labels == ReconstructPoints(buf, t).labels
  {
    var a, b := KeyWord(buf, t, i), KeyWord(buf, t, j);
    var buf' := SwapWords(buf, a, b);
    SwapWordsAgree(buf, a, b, 0, 4 * t.Key().start);
    DecodeFrame(buf, buf', hasLabel, t);
    var f := t.header.finalNodes;
    SwapWordsAgree(buf, a, b, 4 * t.Data().start, 4 * t.Data().End());
    EmitNormalsFrame(buf, buf', t, f);
    if t.labels.LabelsValid? {
      SwapWordsAgree(buf, a, b, 4 * t.Labels().start, 4 * t.Labels().End());
      EmitLabelsFrame(buf, buf', t, f);
    }
  }

  /** Output order is stored order: exchanging the keys of finest nodes `i`
      and `j` exchanges points `i` and `j` and changes nothing else. */
  lemma SwappingKeysSwapsPoints(buf: seq<uint8>, hasLabel: bool, t: Octree, out: PointCloud, i: nat, j: nat)
    requires Decode(buf, hasLabel) == Success(t)
    requires Convert(buf, hasLabel) == Success(out)
    requires i < t.header.finalNodes && j < t.header.finalNodes
    ensures 3 * i + 3 <= |out.points| && 3 * j + 3 <= |out.points|
    ensures
      var buf' := SwapWords(buf, KeyWord(buf, t, i), KeyWord(buf, t, j));
      Convert(buf', hasLabel) == Success(out.(points := SwapTriples(out.points, i, j)))
  {
    var buf' := SwapWords(buf, KeyWord(buf, t, i), KeyWord(buf, t, j));
    SwapKeepsOtherSections(buf, hasLabel, t, i, j);
    ConvertReconstructsDecoded(buf, hasLabel, t);
    ConvertReconstructsDecoded(buf', hasLabel, t);
    SwappedPoints(buf, t, i, j);
  }
}

=== FILE: reconstruct.dfy ===
/**
  The point reconstructor: one point, one normal and (when the label section
  is valid) one label per finest-depth node, in stored order.

  A point component is a key byte plus one half, kept exactly as a `real`.
  Normals are copied bit for bit, so they stay opaque 32-bit words.
 */
module Reconstruct {
  import opened Wrappers
  import opened Bytes
  import opened Layout
  import opened Decoder

  /** Word of the key section holding the key of finest node `i`. */
  function KeyWord(buf: seq<uint8>, t: Octree, i: nat): (w: nat)
    requires WellFormed(buf, t) && i < t.header.finalNodes
    ensures 4 * w + 4 <= |buf|
    ensures t.Key().start <= w < t.Key().End()
  {
    t.Key().start + t.finestBase + i
  }

  /** Component `c` of point `i`: byte `c` of that node's key word in memory,
      plus one half. */
  function PointCoordinate(buf: seq<uint8>, t: Octree, i: nat, c: nat): (x: real)
    requires WellFormed(buf, t) && i < t.header.finalNodes && c < 3
    ensures 0.5 <= x <= 255.5
  {
    buf[4 * KeyWord(buf, t, i) + c] as real + 0.5
  }

  /** First word, relative to the data section, of the block holding
      component `c` of every normal: all x components come first, then all y,
      then all z. */
  function ComponentBlock(f: nat, c: nat): (b: nat)
    requires c < 3
  {
    if c == 0 then 0 else if c == 1 then f else f + f
  }

  /** The block of component `c` starts at word `c * F` of the data section. */
  lemma ComponentBlockIsProduct(f: nat, c: nat)
    requires c < 3
    ensures ComponentBlock(f, c) == c * f
    ensures ComponentBlock(f, c) + f <= 3 * f
  {
    if c == 0 {} else if c == 1 {} else {}
  }

  /** Word of the data section holding component `c` of normal `i`. */
  function NormalWord(buf: seq<uint8>, t: Octree, i: nat, c: nat): (w: nat)
    requires WellFormed(buf, t) && i < t.header.finalNodes && c < 3
    ensures 4 * w + 4 <= |buf|
    ensures t.Data().start <= w < t.Data().End()
  {
    t.Data().start + ComponentBlock(t.header.finalNodes, c) + i
  }

  function NormalComponent(buf: seq<uint8>, t: Octree, i: nat, c: nat): uint32
    requires WellFormed(buf, t) && i < t.header.finalNodes && c < 3
  {
    WordAt(buf, NormalWord(buf, t, i, c))
  }

  function LabelValue(buf: seq<uint8>, t: Octree, i: nat): int32
    requires WellFormed(buf, t) && t.labels.LabelsValid? && i < t.header.finalNodes
  {
    Int32At(buf, t.Labels().start + i)
  }

  /** The converter's output for one file. `labelsRejected` is the
      "not a valid octree file" diagnostic of a failed label gate. */
  datatype PointCloud = PointCloud(points: seq<real>, normals: seq<uint32>, labels: seq<int32>, labelsRejected: bool)

  /** The points after the first `n` iterations of the per-node loop: each
      iteration appends x, y and z of one point. */
  function EmitPoints(buf: seq<uint8>, t: Octree, n: nat): (r: seq<real>)
    requires WellFormed(buf, t) && n <= t.header.finalNodes
    ensures |r| == 3 * n
  {
    if n == 0 then []
    else
      var i := n - 1;
      EmitPoints(buf, t, i) + [PointCoordinate(buf, t, i, 0), PointCoordinate(buf, t, i, 1), PointCoordinate(buf, t, i, 2)]
  }

  /** Component `c` of point `i` is the coordinate of finest node `i`: later
      iterations append after it and never overwrite it. */
  lemma {:induction false} EmitPointsAt(buf: seq<uint8>, t: Octree, n: nat, i: nat, c: nat)
    requires WellFormed(buf, t) && n <= t.header.finalNodes && i < n && c < 3
    ensures EmitPoints(buf, t, n)[3 * i + c] == PointCoordinate(buf, t, i, c)
  {
    if i < n - 1 {
      EmitPointsAt(buf, t, n - 1, i, c);
      EmitPointsPrefix(buf, t, n, 3 * i + c);
    } else {
      EmitPointsLast(buf, t, n, c);
    }
  }

  /** An iteration keeps what the earlier ones appended... */
  lemma EmitPointsPrefix(buf: seq<uint8>, t: Octree, n: nat, k: nat)
    requires WellFormed(buf, t) && 0 < n <= t.header.finalNodes && k < 3 * (n - 1)
    ensures EmitPoints(buf, t, n)[k] == EmitPoints(buf, t, n - 1)[k]
  {
  }

  /** ... and appends the three components of node `n - 1`. */
  lemma EmitPointsLast(buf: seq<uint8>, t: Octree, n: nat, c: nat)
    requires WellFormed(buf, t) && 0 < n <= t.header.finalNodes && c < 3
    ensures EmitPoints(buf, t, n)[3 * (n - 1) + c] == PointCoordinate(buf, t, n - 1, c)
  {
    if c == 0 {} else if c == 1 {} else {}
  }

  /** Every coordinate lies in the centred byte grid 0.5 .. 255.5. */
  lemma {:induction false} EmitPointsInGrid(buf: seq<uint8>, t: Octree, n: nat)
    requires WellFormed(buf, t) && n <= t.header.finalNodes
    ensures forall k :: 0 <= k < 3 * n ==> 0.5 <= EmitPoints(buf, t, n)[k] <= 255.5
  {
    if n > 0 {
      EmitPointsInGrid(buf, t, n - 1);
    }
  }

  /** The normals after the first `n` iterations: x, y and z of one normal
      per iteration, gathered from the three component blocks. */
  function EmitNormals(buf: seq<uint8>, t: Octree, n: nat): (r: seq<uint32>)
    requires WellFormed(buf, t) && n <= t.header.finalNodes
    ensures |r| == 3 * n
  {
    if n == 0 then []
    else
      var i := n - 1;
      EmitNormals(buf, t, i) + [NormalComponent(buf, t, i, 0), NormalComponent(buf, t, i, 1), NormalComponent(buf, t, i, 2)]
  }

  lemma {:induction false} EmitNormalsAt(buf: seq<uint8>, t: Octree, n: nat, i: nat, c: nat)
    requires WellFormed(buf, t) && n <= t.header.finalNodes && i < n && c < 3
    ensures EmitNormals(buf, t, n)[3 * i + c] == NormalComponent(buf, t, i, c)
  {
    if i < n - 1 {
      EmitNormalsAt(buf, t, n - 1, i, c);
      EmitNormalsPrefix(buf, t, n, 3 * i + c);
    } else {
      EmitNormalsLast(buf, t, n, c);
    }
  }

  /** An iteration keeps what the earlier ones appended... */
  lemma EmitNormalsPrefix(buf: seq<uint8>, t: Octree, n: nat, k: nat)
    requires WellFormed(buf, t) && 0 < n <= t.header.finalNodes && k < 3 * (n - 1)
    ensures EmitNormals(buf, t, n)[k] == EmitNormals(buf, t, n - 1)[k]
  {
  }

  /** ... and appends the three components of node `n - 1`. */
  lemma EmitNormalsLast(buf: seq<uint8>, t: Octree, n: nat, c: nat)
    requires WellFormed(buf, t) && 0 < n <= t.header.finalNodes && c < 3
    ensures EmitNormals(buf, t, n)[3 * (n - 1) + c] == NormalComponent(buf, t, n - 1, c)
  {
    if c == 0 {} else if c == 1 {} else {}
  }

  /** The labels after the first `n` iterations of a valid label section. */
  function EmitLabels(buf: seq<uint8>, t: Octree, n: nat): (r: seq<int32>)
    requires WellFormed(buf, t) && t.labels.LabelsValid? && n <= t.header.finalNodes
    ensures |r| == n
  {
    if n == 0 then [] else EmitLabels(buf, t, n - 1) + [LabelValue(buf, t, n - 1)]
  }

  lemma {:induction false} EmitLabelsAt(buf: seq<uint8>, t: Octree, n: nat, i: nat)
    requires WellFormed(buf, t) && t.labels.LabelsValid? && n <= t.header.finalNodes && i < n
    ensures EmitLabels(buf, t, n)[i] == LabelValue(buf, t, i)
  {
    if i < n - 1 {
      EmitLabelsAt(buf, t, n - 1, i);
    }
  }

  /** Reconstruct every finest-depth node: no node is filtered out. */
  function ReconstructPoints(buf: seq<uint8>, t: Octree): (r: PointCloud)
    requires WellFormed(buf, t)
    ensures |r.points| == 3 * t.header.finalNodes && |r.normals| == 3 * t.header.finalNodes
    ensures |r.labels| == (if t.labels.LabelsValid? then t.header.finalNodes else 0)
    ensures r.labelsRejected <==> t.labels.InvalidLabelLayout?
  {
    var f := t.header.finalNodes;
    PointCloud(
      EmitPoints(buf, t, f),
      EmitNormals(buf, t, f),
      if t.labels.LabelsValid? then EmitLabels(buf, t, f) else [],
      t.labels.InvalidLabelLayout?)
  }

  /** Decode a buffer and reconstruct its finest-depth points. */
  function Convert(buf: seq<uint8>, hasLabel: bool): (r: Result<PointCloud, DecodeError>)
    ensures r.Success? <==> Decode(buf, hasLabel).Success?
    ensures r.Failure? ==> r.error == Decode(buf, hasLabel).error
    ensures r.Success? ==>
      var h := Decode(buf, hasLabel).value.header;
      var f := h.finalNodes;
      && |r.value.points| == 3 * f
      && |r.value.normals| == 3 * f
      && (hasLabel && |buf| == ExpectedLabelledBytes(h) ==> |r.value.labels| == f)
      && (!(hasLabel && |buf| == ExpectedLabelledBytes(h)) ==> r.value.labels == [])
      && (r.value.labelsRejected <==> hasLabel && |buf| != ExpectedLabelledBytes(h))
  {
    var t :- Decode(buf, hasLabel);
    Success(ReconstructPoints(buf, t))
  }
}

=== FILE: wrappers.dfy ===
/** Failure-compatible result types shared by the decoder modules. */
module Wrappers {

  /** An optional value. */
  datatype Option<+T> = None | Some(value: T)

  /** Either a decoded value or the reason decoding stopped. */
  datatype Result<+T, +E> = Success(value: T) | Failure(error: E) {

    predicate IsFailure() {
      Failure?
    }

    function PropagateFailure<U>(): Result<U, E>
      requires Failure?
    {
      Failure(error)
    }

    function Extract(): T
      requires Success?
    {
      value
    }
  }
}
